=== FILE: README.md ===
# Reimbursement bot: a Dafny model of its records and conversations

The bot (`fullfitur.py`) keeps expense records for a team chat. Each record
is a photo of a receipt, or, for overtime (`lembur`), a placeholder picture.
It is stored in a remote object store under `category/YYYY-MM/key`. The key
`YYYYmmdd_HHMMSS_note_amount.jpg` carries the note and the amount. The
folder `YYYY-MM` names a fiscal period that starts on the 25th of a month.
The bot holds no database. Every report lists the period's folders and reads
the notes and amounts back out of the keys.

The model covers the following:

- **Periods and timestamps** (`Period`). The cut-off rule, the folder name
  and the timestamp that opens every key.
- **Key codec** (`KeyCodec`). Sanitising a note, building a key, the inline
  decoder the listing handlers share, and the key rewrite of the edit flow.
- **Object store** (`ObjectStore`). The store as a map from paths to
  objects, with upload, download and delete, and the
  download/delete/upload "rename" the edit flow performs.
- **Listings** (`Listing`). The stable sort by creation time, the
  decodable subset of a listing, and the list of names the delete flow
  keeps.
- **Reports** (`Reports`). The `/list` and `/summary` totals, and how
  they differ.
- **Category registry** (`Registry`). `/tambah_kategori`,
  `/hapus_kategori` and the sorted, duplicate-free saved form.
- **Conversations** (`Conversation`). The add, delete and edit flows with
  their states, the per-user session, the `/batal` fallback, and an
  invariant tying each state to the session fields it relies on.

Everything the handlers learn from outside comes in as a parameter:
- the clock;
- the store's listing of a folder;
- whether each remote call succeeds;
- the creation time the store gives an upload.

Python's string operations are modelled on ASCII (see "Left out"). The
`int()` that reads an amount back is modelled as "a non-empty string of
ASCII digits" (`Decimal.ParseInt`).

A key does not need three `_`-separated pieces to be read back. `parts[0]`
and `parts[-1]` always exist, so a key is skipped only when its last piece
is not a number: `5000.jpg` reads back as an amount of 5000 with an empty
note. `KeyCodec.DecodesIff` states this rule and
`KeyCodec.OnePieceKeyDecodes` gives that example.

## Model

| member | source | states |
|---|---|---|
| Period.CurrentPeriod | fullfitur.py:119-123 | The period is a proper month: the calendar month from the 25th on, and the month before (December of the previous year in January) before the 25th. |
| Period.PeriodCases | fullfitur.py:119-123 | The three cases of the cut-off rule, each with the exact year and month it gives. |
| Period.PeriodId | fullfitur.py:123 | The folder name splits at `-` into the unpadded year and the two-digit month. |
| Period.PeriodIdInjective | fullfitur.py:123 | Two periods share a folder only if they are the same period. |
| Period.DateStamp | fullfitur.py:232 | The date half of a timestamp is eight digits that read back as year, month and day side by side. |
| Period.TimeStamp | fullfitur.py:232 | The time half is six digits that read back as hour, minute and second. |
| Strings.Split | fullfitur.py:285 | `str.split` gives at least one piece, and no piece holds the separator. |
| Strings.JoinSplit | fullfitur.py:360-361 | Joining the pieces of a split gives the string back. |
| Strings.SplitJoin | fullfitur.py:360-361 | Splitting a join of separator-free pieces gives the pieces back. |
| Strings.RemoveAllKeepsChars | fullfitur.py:285 | Removing `.jpg` keeps only characters of the original. |
| Strings.RemoveAllUnchanged | fullfitur.py:285 | `replace(".jpg", "")` leaves a string without `.jpg` unchanged. |
| Strings.RemoveAllSuffix | fullfitur.py:285 | A trailing `.jpg` is deleted when no `.` comes before it. |
| Strings.RemoveAllAppend | fullfitur.py:285 | Removal distributes over a concatenation when no occurrence can straddle the seam. |
| Strings.RemoveAllCanLeavePattern | fullfitur.py:285 | One pass of `replace` can leave `.jpg` behind: `.j.jpgpg` becomes `.jpg`. |
| Strings.TrimLeft | fullfitur.py:189 | Dropping leading whitespace keeps a suffix, drops only whitespace, and stops at the first other character. |
| Strings.TrimRight | fullfitur.py:189 | Dropping trailing whitespace keeps a prefix, drops only whitespace, and stops at the last other character. |
| Strings.Strip | fullfitur.py:189 | `strip()` keeps a slice of the original with only whitespace around it and none at its ends. |
| Strings.StripUnique | fullfitur.py:189 | Any slice with only whitespace around it and none at its ends is what `strip()` keeps, so the contract of `Strip` fixes its result. |
| Strings.StripIdempotent | fullfitur.py:189 | Stripping twice is stripping once. |
| Strings.Lower | fullfitur.py:189 | `lower()` keeps the length and lower-cases character by character. |
| Strings.LexLessTotal | fullfitur.py:282 | String order, by which creation times sort, is total. |
| Strings.LexLessTransitive | fullfitur.py:282 | String order is transitive. |
| Decimal.ParseInt | fullfitur.py:287 | A piece reads as a number exactly when it is a non-empty run of digits. |
| Decimal.PadInjective | fullfitur.py:123 | Zero-padded numbers of one width are equal only for equal numbers. |
| KeyCodec.Sanitize | fullfitur.py:231 | Sanitising keeps the length, keeps allowed characters, turns every other one into `_`, and yields only allowed characters. |
| KeyCodec.SanitizeFixedPoints | fullfitur.py:231 | A note is unchanged by sanitising exactly when it holds only allowed characters. |
| KeyCodec.SanitizeIdempotent | fullfitur.py:231 | Sanitising twice is sanitising once. |
| KeyCodec.SanitizeMergesNotes | fullfitur.py:231 | Two different notes can get the same key text ("a b" and "a_b"). |
| KeyCodec.SanitizeForgetsDisallowed | fullfitur.py:231 | Replacing a disallowed character of a note by `_` or by another disallowed character does not change its key text. |
| KeyCodec.DecodesIff | fullfitur.py:285-287 | A key is read back exactly when its last piece is a number, whatever the number of pieces. |
| KeyCodec.OnePieceKeyDecodes | fullfitur.py:285-287 | A key of one piece, `5000.jpg`, is read back. |
| KeyCodec.KeyPartsOfEncoded | fullfitur.py:232-233 | The pieces of a new key are the date, the time, the pieces of the sanitised note (without `.jpg`), and the amount. |
| KeyCodec.DecodeEncoded | fullfitur.py:232-233 | Round trip: a new key reads back with the date as its first piece, the time as the first note word, then the note's words, then the amount typed. |
| KeyCodec.EncodeKeyInjective | fullfitur.py:232-233 | A new key determines the moment, the sanitised note and the amount text it was built from. |
| KeyCodec.AmountEditChangesOnlyAmount | fullfitur.py:360-365 | An amount edit of a clean key with at least three pieces replaces its last piece and keeps the others. |
| KeyCodec.NoteEditReplacesMiddle | fullfitur.py:360-365 | A note edit keeps the first and last pieces and replaces every middle piece with the new note's pieces. |
| KeyCodec.NoteEditDropsTime | fullfitur.py:360-365 | A note edit of a key the add flow wrote drops its time of day; the new key opens with the date alone. |
| KeyCodec.MiddleOfEncoded | fullfitur.py:360-361 | The middle pieces of a new key re-join to the time of day and the note without `.jpg`. |
| KeyCodec.AmountEditOfEncoded | fullfitur.py:360-365 | An amount edit of a new key is the key of the same moment with the new amount; only a `.jpg` inside the note is lost. |
| KeyCodec.SameAmountIsNoChange | fullfitur.py:360-366 | Re-entering the same amount gives the same key exactly when the note holds no `.jpg`. |
| ObjectStore.Upload | fullfitur.py:65-72 | A successful PUT puts the object at its path; a failed one changes nothing; no other path is touched. |
| ObjectStore.Download | fullfitur.py:74-82 | A GET yields the object exactly when it exists and the request succeeds. |
| ObjectStore.Delete | fullfitur.py:84-93 | 200 and 404 both count as success, and after either the path is absent; a failure changes nothing; no other path is touched. |
| ObjectStore.Rename | fullfitur.py:368-378 | Download, delete and upload give four outcomes, each characterised by which call failed; each has its effect on the store, and a failed upload leaves the old object deleted. |
| ObjectStore.SavedRenameKeepsSize | fullfitur.py:368-378 | A successful move onto a free path keeps the number of objects. |
| ObjectStore.UploadFailureLosesRecord | fullfitur.py:368-378 | A failed upload after the delete leaves the record at neither path. |
| ObjectStore.ListedNameIsStored | fullfitur.py:56-63 | A name in a faithful folder listing is an object that a working delete removes. |
| Listing.SortByDate | fullfitur.py:282 | Sorting by creation time is a permutation of the listing. |
| Listing.SortByDateSorted | fullfitur.py:282 | The sorted listing is ordered by creation time. |
| Listing.SortByDateStable | fullfitur.py:282 | The sort is stable: entries with the same creation time keep the listing order. |
| Listing.Deletable | fullfitur.py:280-289 | The delete flow keeps one name per key that reads back. |
| Listing.DeletableMembers | fullfitur.py:280-289 | The names kept are exactly the readable keys of the listing. |
| Listing.Source | fullfitur.py:280-289 | The `j`-th kept name comes from position `j` or later in the sorted listing. |
| Listing.SourceExact | fullfitur.py:280-289 | It comes from position `j` exactly when all of the first `j + 1` keys read back. |
| Listing.AllDecodeNumbering | fullfitur.py:283-289 | When every key reads back, the kept names are the listing's names in order. |
| Listing.ShownNumberAsWritten | fullfitur.py:283-286 | The delete menu numbers entries by their position in the sorted listing, unreadable ones included. |
| Listing.NumberingShifts | fullfitur.py:283-301 | After an unreadable key, the number shown next to an entry does not select that entry. |
| Listing.ShownNumber | fullfitur.py:283-286 | A shown entry's corrected number is one more than the number of shown entries before it. |
| Listing.ShownNumberSelects | fullfitur.py:283-301 | With the corrected number, typing it selects exactly that entry. |
| Listing.SortKeepsTotals | fullfitur.py:399-404 | Sorting changes neither how many keys read back nor what they add up to. |
| Reports.ReadFolder | fullfitur.py:399-406 | The inner loop of `/list` yields the lines, the count and the total of the readable keys of one folder. |
| Reports.ListData | fullfitur.py:392-411 | `/list` yields one block per category with a readable key, the number of readable keys, and the sum of their amounts. |
| Reports.LinesMatchCounts | fullfitur.py:399-406 | There is one line per readable key, and the lines add up to those keys' amounts. |
| Reports.SectionOfMatchesCounts | fullfitur.py:397-408 | A category adds to the totals exactly what its block shows. |
| Reports.ListTotalIsSumOfSections | fullfitur.py:397-409 | The overall count and total are the sums over the blocks shown. |
| Reports.NoDataIffNoSections | fullfitur.py:407-410 | `/list` says there is no data exactly when it shows no block. |
| Reports.SumAll | fullfitur.py:177-180 | A category's sum exists exactly when every key reads back, and it is the sum of their amounts. |
| Reports.Summary | fullfitur.py:170-185 | `/summary` has no data exactly when no category has a row; otherwise it shows those rows and their grand total. |
| Reports.SummaryVsList | fullfitur.py:170-185 | The summary's grand total plus the readable amounts of the dropped categories is the `/list` total. |
| Reports.NothingDropped | fullfitur.py:170-185 | When every key reads back, `/summary` and `/list` agree. |
| Reports.OneBadKeyDropsCategory | fullfitur.py:176-180 | One unreadable key hides its whole category from `/summary`, while `/list` still shows the readable ones. |
| Registry.AddCategory | fullfitur.py:187-194 | No argument gives the usage reply. A lower-cased, stripped name is added exactly when it is alphabetic and new; otherwise the list is unchanged. |
| Registry.RemoveCategory | fullfitur.py:196-202 | No argument gives the usage reply. A known name loses its first occurrence, the rest keeping their order; an unknown one changes nothing. |
| Registry.FirstIndex | fullfitur.py:200 | The position found holds the name and no earlier position does. |
| Registry.RemoveFirst | fullfitur.py:200 | `list.remove` cuts out the first occurrence and keeps the order of the rest; one copy fewer of that name. |
| Registry.AddedNameIsLowerCase | fullfitur.py:189-192 | An added name is alphabetic and already lower case. |
| Registry.NormalizedIsLowerCase | fullfitur.py:189 | `lower().strip()` gives a name that is its own lower case. |
| Registry.CommandsKeepNoDuplicates | fullfitur.py:187-202 | Neither command introduces a duplicate. |
| Registry.Persisted | fullfitur.py:116-117 | The saved list is strictly sorted and holds exactly the registered names. |
| Registry.SortedBySet | fullfitur.py:116-117 | A strictly sorted list is determined by its set of elements. |
| Registry.PersistedDependsOnSetOnly | fullfitur.py:116-117 | The saved list depends only on which names are registered, not on their order or repetitions. |
| Registry.PersistedIdempotent | fullfitur.py:116-117 | Saving a saved list gives it back. |
| Conversation.CallbackArg | fullfitur.py:274 | `data.split('_')[1]` exists exactly when the data has two or more pieces. |
| Conversation.PrefixedCallbackArg | fullfitur.py:274 | Button data `prefix_value` yields the first piece of `value`. |
| Conversation.StartAdd | fullfitur.py:206-214 | The add flow records the category and whether it is photo-less, and goes to the note state exactly for `lembur`, to the photo state otherwise. |
| Conversation.OnCommandAtEnd | fullfitur.py:205-214 | As written: a registered command word starts the add flow for the whole lower-cased text after the slash, and goes to the note state exactly when that text is `lembur`. |
| Conversation.OnCommandAtEndCorrected | fullfitur.py:205-214 | Corrected: the add flow starts for the command word itself, a registered category. |
| Conversation.StartAddFlowAsWritten | fullfitur.py:205-214 | Through the dispatcher, a category command records the whole lower-cased text after the slash and skips the photo exactly when that text is `lembur`. |
| Conversation.AsWrittenCategoryEscapesRegistry | fullfitur.py:205-214 | Through the dispatcher, any text after the command word makes the recorded category differ from the command word, and `/lembur` with a suffix asks for a photo. |
| Conversation.GroupChatCommandCategory | fullfitur.py:113 | `/grab@rembesbot` is matched as the default category `grab` but records under `grab@rembesbot`, which is not registered. |
| Conversation.CorrectedAgreesWithoutSuffix | fullfitur.py:205-214 | With nothing after the command word, the handler as written and the corrected one give the same result. |
| Conversation.OnAmount | fullfitur.py:224-252 | A non-numeric amount asks again. Otherwise the flow asks whether to continue with the session kept, or ends with it cleared; the store changes only after a successful upload. A missing category or note, or a photo that cannot be fetched, ends the flow with nothing stored. |
| Conversation.OnContinue | fullfitur.py:254-265 | Answering the continue question never touches the store. |
| Conversation.OnDeleteCategory | fullfitur.py:273-292 | Button data without `_` fails outside the `try`. A failed or empty listing ends the flow with the session cleared. A non-empty one reaches the file state, recording the category and the readable names of the sorted listing, and shows that many. |
| Conversation.OnDeleteChoice | fullfitur.py:294-313 | A non-number asks again with nothing changed. A number with no category or no deletable names left ends the flow as an expired session. Otherwise the flow either stays exactly as it was or ends with the session cleared. |
| Conversation.OnEditCategory | fullfitur.py:321-335 | Button data without `_` fails outside the `try`. A failed or empty listing ends the flow with the session cleared. A non-empty one reaches the file state, recording the category and the whole sorted listing, and shows its readable entries. |
| Conversation.OnEditChoice | fullfitur.py:337-344 | A number in range (and only that) moves to the field choice and records the number minus one as the index; a non-number or out-of-range number leaves everything as it was. |
| Conversation.OnEditField | fullfitur.py:346-349 | The second piece of the button data becomes the field to edit and the flow asks for its value; data without `_` fails outside the `try`. |
| Conversation.OnNewValue | fullfitur.py:351-382 | A value is rejected, leaving everything as it was, exactly when the field is missing (a failure outside the `try`) or the field is the amount and the text is not all digits; any accepted value ends the flow with the session cleared. |
| Conversation.InitialInv | fullfitur.py:102-106 | The idle machine with an empty session satisfies the invariant. |
| Conversation.StepPreservesInv | fullfitur.py:490-517 | Every update keeps the invariant linking each state to the session fields its handler reads. |
| Conversation.NoRaiseUnderInv | fullfitur.py:216-217 | Under the invariant, a handler fails outside its `try` only when fetching a photo fails. |
| Conversation.CancelEndsConversation | fullfitur.py:384-390 | `/batal` ends any conversation, clears the session and leaves the store alone. |
| Conversation.StoreChangesOnlyOnCommit | fullfitur.py:224-382 | Only saving an amount, choosing a file to delete and giving an edit's new value change the store. |
| Conversation.StartAddFlow | fullfitur.py:205-214 | Corrected: the add flow records a registered category, the command word, and skips the photo exactly for `lembur`. |
| Conversation.AmountSavesRecord | fullfitur.py:224-247 | With working calls, the record is stored under its encoded key in the period's folder, with the photo or placeholder; it reads back with the amount typed, and every other object stays, with its value. |
| Conversation.OnAmountSaves | fullfitur.py:224-247 | The save handler itself stores the record at its path and leaves every other object as it was. |
| Conversation.RecordPathDecodes | fullfitur.py:231-233 | The key a record is stored under, built from a numeric amount, reads back with that amount. |
| Conversation.AmountFailures | fullfitur.py:237-252 | A failed upload stores nothing and ends the flow. A failed group notification ends it too, after the record was stored. |
| Conversation.ContinueAnswer | fullfitur.py:254-265 | "Yes" keeps category and photo setting, forgets photo and note, and asks for the photo, or the note if photo-less; any other answer ends the flow. |
| Conversation.DeleteChoice | fullfitur.py:294-306 | A listed number deletes exactly that name in the period's folder, reports how the delete went, and ends the flow; every other object stays, with its value. |
| Conversation.DeleteChoiceRejected | fullfitur.py:294-311 | A non-number or an out-of-range number changes nothing. |
| Conversation.DeleteMenuOffersListedKeys | fullfitur.py:273-292 | Every name the delete flow keeps is a readable key of the listed folder. |
| Conversation.DeleteMenuNamesStored | fullfitur.py:273-306 | When the listing is exact, every name the delete menu offers is an object of the folder that a working delete removes. |
| Conversation.EditChoiceSelectsShown | fullfitur.py:329-342 | Typing the number the edit menu prints next to an entry selects that entry of the sorted listing. |
| Conversation.EditFieldChosen | fullfitur.py:338-349 | Pressing `editfield_<field>` records that field and asks for its new value. |
| Conversation.EditNewValue | fullfitur.py:351-382 | An accepted value always ends the flow with the session cleared. An unchanged key touches nothing; otherwise the old object moves to the rewritten key, and the outcome says which step failed. |

## Left out

- Transport and routing. The model has no Telegram API and no message texts,
  keyboards or Markdown. It does not model how the library routes updates
  among three conversation handlers that share one session.
  - The conversations are built with `per_message=True` (fullfitur.py:498,
    505, 514). Under the library's rules, that makes a conversation handler
    consider callback queries only. The model instead describes the handlers
    as the state tables register them.
  - Only one conversation runs at a time. A command other than `/batal`
    during a conversation is ignored.
- `Conversation.Step`: takes the category commands fixed at start-up as a
  parameter. A category added later needs a restart, as the bot says.
- The remote store's HTTP protocol, credentials and region, and the local
  temporary files. The store is a map; each call's success is a parameter.
- `Conversation.OnAmount`: draws no placeholder picture and writes no temporary
  file. The stored blob records the note and the amount instead.
- The report texts: month names, thousands separators, `capitalize()`, the
  Word export (`/export`), `/start`, `/status` with `_format_uptime`, the
  reminder scheduler, and loading the registry from JSON.
- The clock is a parameter. The handler reads it twice (period and
  timestamp); the model reads it once, so a save across midnight on the
  24th is not modelled.
- Decimal.ParseInt: accepts only ASCII digit strings. Python's `int()` also
  accepts a sign, surrounding spaces, `_` between digits and non-ASCII
  digits. So "-1" or " 1" as a menu choice is "not a number" here, and the
  model asks again. Python behaves differently in three ways:
  - "-1" is out of range there, and Python also asks again.
  - " 1" selects the first entry.
  - When the delete list is empty (no key of the folder reads back),
    Python ends the flow with "session expired" for any text `int()`
    accepts. The model stays in the file-choice state.
- Strings.Lower: `lower()`, `strip()`, `isalpha()`, `isdigit()` and the
  regular expression class `\w` are modelled on ASCII. Unicode letters,
  digits and whitespace (such as U+0085 or U+00A0, which `strip()` also
  removes) are not.
- Period.DateStamp: pads years before 1000 to four digits. The platform's
  `strftime` may not, but such dates do not occur.
- Reports.Summary: keeps its rows in a list. The source keeps a dict keyed by
  category. The two agree because the registry holds no duplicates
  (`Registry.CommandsKeepNoDuplicates`).
- The race between showing a menu and acting on a number is not modelled.
  The listing can change in between, and the period can roll over at
  midnight before the 25th.
- `Conversation.OnPhoto` and `Conversation.OnNote` only record what they
  receive, so they have no contract of their own. Their effect is stated
  through `Conversation.StepPreservesInv` and
  `Conversation.AmountSavesRecord`.

## Findings

| source | as written | input that shows it | evidently intended | confidence | as-written member | corrected member |
|---|---|---|---|---|---|---|
| fullfitur.py:206 | The add flow's category is the whole message text after the slash, lower-cased. | `/grab@rembesbot` (how group chats send a command) stores the record in the folder `grab@rembesbot/…`, and `/grab 5000` in `grab 5000/…`; no report, delete or edit menu lists either. `/lembur@rembesbot` asks for a photo. | The category is the command word. | medium; not executed | Conversation.AsWrittenCategoryEscapesRegistry | Conversation.StartAddFlow |
| fullfitur.py:283-289 | The delete menu numbers entries by position in the sorted listing, but the number typed indexes the list of readable keys only. | A folder whose oldest key is `foto.jpg` (unreadable), followed by two readable keys. The first entry listed shows number 2, and typing 2 deletes the entry listed after it. | The number shown next to an entry selects that entry. | high; not executed | Listing.NumberingShifts | Listing.ShownNumberSelects |

For the first row, the dispatcher `Conversation.Step` follows the handler
as written (`Conversation.OnCommandAtEnd`, through
`Conversation.AddCategoryAsWritten`).
`Conversation.OnCommandAtEndCorrected`, through
`Conversation.AddCategoryOf`, takes the command word instead, and
`Conversation.CorrectedAgreesWithoutSuffix` shows that the two differ only
when something follows the command word. For the second row, the model's
delete flow keeps the handler's list of readable names, and
`Listing.ShownNumber` is the numbering that matches it. The edit menu has
no such shift: it numbers the whole sorted listing and indexes that same
listing (`Conversation.EditChoiceSelectsShown`).

=== FILE: conversation.dfy ===
/** The three conversations of the bot (add a record, delete a record,
    edit a record) and the `/batal` fallback, as one transition function
    over a state, the per-user session (`context.user_data`) and the
    object store. Everything a handler learns from outside the chat (the
    clock, the store's answers, whether a remote call fails) comes in as
    an `Env`. */
module Conversation {
  import opened Wrappers
  import opened Strings
  import opened Decimal
  import opened Period
  import opened KeyCodec
  import opened ObjectStore
  import opened Listing

  /** The ten conversation states, plus `End`: no conversation going on. */
  datatype State =
    | End
    | GetPhoto | GetKeterangan | GetBiaya | AskContinue
    | ChooseDeleteCategory | ChooseDeleteFile
    | ChooseEditCategory | ChooseEditFile | ChooseEditField | GetNewValue

  /** `context.user_data`: one optional field per key the handlers use. */
  datatype Session = Session(
    category: Option<string>,
    noPhoto: Option<bool>,
    photoFileId: Option<string>,
    keterangan: Option<string>,
    deleteCategory: Option<string>,
    deletableFiles: Option<seq<string>>,
    editCategory: Option<string>,
    editableFiles: Option<seq<Entry>>,
    editFileIndex: Option<nat>,
    editField: Option<string>)

  /** `user_data.clear()`. */
  const Cleared: Session := Session(None, None, None, None, None, None, None, None, None, None)

  /** What the user sends: a command (`/word` followed by whatever else the
      message text holds, such as `@botname` or arguments), plain text, a
      photo, or the data of a pressed inline button. */
  datatype Event =
    | Command(word: string, rest: string)
    | Text(text: string)
    | Photo(fileId: string)
    | Callback(data: string)

  /** The world outside the chat for one update: the clock, the creation
      time the store gives an uploaded object, the store's answer to a
      folder listing, whether a group chat is configured, and which remote
      calls succeed. */
  datatype Env = Env(
    now: DateTime,
    stamp: string,
    listing: Option<seq<Entry>>,
    groupChat: bool,
    photoFetchOk: bool,
    notifyOk: bool,
    downloadOk: bool,
    deleteOk: bool,
    uploadOk: bool)

  datatype Machine = Machine(state: State, session: Session, store: Store)

  /** What the bot answers, reduced to what it means. `Ignored`: no
      handler takes the update in this state. `Raised`: the handler fails
      outside its `try`, so neither state nor session changes. */
  datatype Reply =
    | Ignored
    | Raised
    | AskPhoto
    | AskNote
    | AskAmount
    | AmountNotNumeric
    | SavedAskContinue
    | UploadFailed
    | InternalError
    | Finished
    | Cancelled
    | MenuShown
    | NothingListed
    | FilesShown(shown: nat)
    | NotANumber
    | NumberOutOfRange
    | SessionExpired
    | DeleteResult(deleted: DeleteOutcome)
    | AskField
    | AskNewValue
    | NoChange
    | EditResult(edited: EditOutcome)

  /** The category a photo-less entry is recorded under. */
  const Overtime: string := "lembur"

  /** The folder name of the period `now` falls in. */
  function PeriodName(now: DateTime): string
    requires Valid(now)
  {
    PeriodId(CurrentPeriod(now))
  }

  predicate StartsWith(s: string, prefix: string)
  {
    |prefix| <= |s| && s[..|prefix|] == prefix
  }

  /** `data.split('_')[1]`; `None` is the `IndexError` of a data string
      without `_`. */
  function CallbackArg(data: string): (r: Option<string>)
    ensures r.Some? <==> |Split(data, '_')| >= 2
  {
    var parts := Split(data, '_');
    if |parts| >= 2 then Some(parts[1]) else None
  }

  /** Button data built as `prefix_value` always has a second piece: the
      first piece of `value`. */
  lemma PrefixedCallbackArg(data: string, prefix: string)
    requires '_' !in prefix && StartsWith(data, prefix + "_")
    ensures CallbackArg(data) == Some(Split(data[|prefix| + 1..], '_')[0])
  {
    var rest := data[|prefix| + 1..];
    assert data == prefix + "_" + rest;
    SplitAppend(prefix, rest, '_');
    SplitNoSeparator(prefix, '_');
  }

  // ---------------------------------------------------------------------
  // Add flow
  // ---------------------------------------------------------------------

  /** The category the handler records under: `message.text[1:].lower()`,
      the whole text after the slash, so an `@botname` suffix or arguments
      become part of the category. */
  function AddCategoryAsWritten(word: string, rest: string): string
  {
    Lower(word + rest)
  }

  /** The category the add flow is meant to record under: the command word
      alone, which is what selected the handler. */
  function AddCategoryOf(word: string, rest: string): string
  {
    Lower(word)
  }

  /** The add flow for `category`: overtime entries have no photo and go
      straight to the note, every other category asks for a photo. */
  function StartAdd(m: Machine, category: string): (r: (Machine, Reply))
    ensures r.0.store == m.store
    ensures r.0.session.category == Some(category)
    ensures r.0.session.noPhoto == Some(category == Overtime)
    ensures r.0.state == GetKeterangan <==> category == Overtime
    ensures r.0.state == GetPhoto <==> category != Overtime
  {
    if category == Overtime then
      (m.(state := GetKeterangan, session := m.session.(category := Some(category), noPhoto := Some(true))), AskNote)
    else
      (m.(state := GetPhoto, session := m.session.(category := Some(category), noPhoto := Some(false))), AskPhoto)
  }

  /** An entry command, as the handlers are written: a registered category
      command (matched on its command word) starts the add flow for the
      whole lower-cased text after the slash; `/hapus` and `/edit` show
      their menus. */
  function OnCommandAtEnd(entries: seq<string>, m: Machine, word: string, rest: string): (r: (Machine, Reply))
    requires m.state == End
    ensures r.0.store == m.store
    ensures r.0.state == GetPhoto || r.0.state == GetKeterangan ==>
              r.0.session.category == Some(Lower(word + rest)) && Lower(word) in entries
    ensures r.0.state == GetKeterangan <==> Lower(word) in entries && Lower(word + rest) == Overtime
  {
    var lowered := Lower(word);
    if lowered in entries then StartAdd(m, AddCategoryAsWritten(word, rest))
    else if lowered == "hapus" then (m.(state := ChooseDeleteCategory), MenuShown)
    else if lowered == "edit" then (m.(state := ChooseEditCategory), MenuShown)
    else (m, Ignored)
  }

  /** An entry command with the category taken from the command word. */
  function OnCommandAtEndCorrected(entries: seq<string>, m: Machine, word: string, rest: string): (r: (Machine, Reply))
    requires m.state == End
    ensures r.0.store == m.store
    ensures r.0.state == GetPhoto || r.0.state == GetKeterangan ==>
              r.0.session.category == Some(Lower(word)) && Lower(word) in entries
    ensures r.0.state == GetKeterangan <==> Lower(word) in entries && Lower(word) == Overtime
  {
    var lowered := Lower(word);
    if lowered in entries then StartAdd(m, AddCategoryOf(word, rest))
    else if lowered == "hapus" then (m.(state := ChooseDeleteCategory), MenuShown)
    else if lowered == "edit" then (m.(state := ChooseEditCategory), MenuShown)
    else (m, Ignored)
  }

  function OnPhoto(m: Machine, fileId: string, env: Env): (Machine, Reply)
    requires m.state == GetPhoto
  {
    if !env.photoFetchOk then (m, Raised)
    else (m.(state := GetKeterangan, session := m.session.(photoFileId := Some(fileId))), AskNote)
  }

  function OnNote(m: Machine, text: string): (Machine, Reply)
    requires m.state == GetKeterangan
  {
    (m.(state := GetBiaya, session := m.session.(keterangan := Some(text))), AskAmount)
  }

  /** Where the add flow stores a record, and what it stores. */
  function RecordPath(category: string, note: string, amount: string, now: DateTime): Path
    requires Valid(now) && IsDigits(amount)
  {
    Path(category, PeriodName(now), EncodeKey(now, note, amount))
  }

  /** `get_biaya_and_save`: a non-numeric amount is asked for again;
      otherwise the record is uploaded under its encoded key. An upload
      failure, a missing session field or a failed remote call ends the
      conversation; a failed group notification does too, after the record
      was stored. */
  function OnAmount(m: Machine, text: string, env: Env): (r: (Machine, Reply))
    requires m.state == GetBiaya
    requires Valid(env.now)
    ensures !IsDigits(text) ==> r == (m, AmountNotNumeric)
    ensures r.0.state == GetBiaya || r.0.state == AskContinue || r.0.state == End
    ensures r.0.state == End ==> r.0.session == Cleared
    ensures r.0.state == AskContinue ==> r.0.session == m.session
    ensures r.0.store != m.store ==>
              && IsDigits(text)
              && m.session.category.Some? && m.session.keterangan.Some?
              && env.uploadOk
    ensures IsDigits(text) && (m.session.category.None? || m.session.keterangan.None?) ==>
              r == (Machine(End, Cleared, m.store), InternalError)
    ensures IsDigits(text) && m.session.noPhoto != Some(true)
            && (m.session.photoFileId.None? || !env.photoFetchOk) ==>
              r == (Machine(End, Cleared, m.store), InternalError)
  {
    if !IsDigits(text) then (m, AmountNotNumeric)
    else
      var session := m.session;
      if session.category.None? || session.keterangan.None? then
        (Machine(End, Cleared, m.store), InternalError)
      else
        var category := session.category.value;
        var note := session.keterangan.value;
        var path := RecordPath(category, note, text, env.now);
        var blob :=
          if session.noPhoto == Some(true) then Some(Placeholder(note, Value(text)))
          else if session.photoFileId.None? || !env.photoFetchOk then None
          else Some(Blob.Photo(session.photoFileId.value));
        if blob.None? then (Machine(End, Cleared, m.store), InternalError)
        else
          var (store, uploaded) := Upload(m.store, path, blob.value, env.stamp, env.uploadOk);
          if !uploaded then (Machine(End, Cleared, m.store), UploadFailed)
          else if env.groupChat && !env.notifyOk then (Machine(End, Cleared, store), InternalError)
          else (Machine(AskContinue, session, store), SavedAskContinue)
  }

  /** `ask_continue`: "yes" keeps the category and the photo setting and
      forgets the photo and the note; anything else ends the flow. */
  function OnContinue(m: Machine, data: string): (r: (Machine, Reply))
    requires m.state == AskContinue
    ensures r.0.store == m.store
  {
    if m.session.category.None? then (m, Raised)
    else
      var session := m.session.(photoFileId := None, keterangan := None);
      if data == "continue_yes" then
        if m.session.noPhoto == Some(true) then (m.(state := GetKeterangan, session := session), AskNote)
        else (m.(state := GetPhoto, session := session), AskPhoto)
      else (Machine(End, Cleared, m.store), Finished)
  }

  // ---------------------------------------------------------------------
  // Delete flow
  // ---------------------------------------------------------------------

  /** `choose_delete_category`: list the folder of the chosen category for
      the current period and keep the names of the keys that read back, in
      creation order. An empty folder and a failed listing both end the
      flow. */
  function OnDeleteCategory(m: Machine, data: string, env: Env): (r: (Machine, Reply))
    requires m.state == ChooseDeleteCategory
    ensures r.0.store == m.store
    ensures r.0.state == ChooseDeleteFile ==>
              && env.listing.Some? && |env.listing.value| > 0
              && r.0.session.deletableFiles == Some(Deletable(SortByDate(env.listing.value)))
    ensures CallbackArg(data).None? ==> r == (m, Raised)
    ensures CallbackArg(data).Some? && (env.listing.None? || |env.listing.value| == 0) ==>
              r == (Machine(End, Cleared, m.store), NothingListed)
    ensures CallbackArg(data).Some? && env.listing.Some? && |env.listing.value| > 0 ==>
              && r.0.state == ChooseDeleteFile
              && r.0.session == m.session.(deleteCategory := CallbackArg(data),
                                           deletableFiles := Some(Deletable(SortByDate(env.listing.value))))
              && r.1 == FilesShown(|Deletable(SortByDate(env.listing.value))|)
  {
    match CallbackArg(data)
    case None => (m, Raised)
    case Some(category) =>
      match env.listing
      case None => (Machine(End, Cleared, m.store), NothingListed)
      case Some(files) =>
        if |files| == 0 then (Machine(End, Cleared, m.store), NothingListed)
        else
          var names := Deletable(SortByDate(files));
          var session := m.session.(deleteCategory := Some(category), deletableFiles := Some(names));
          (m.(state := ChooseDeleteFile, session := session), FilesShown(|names|))
  }

  /** `choose_delete_file`: a number in range deletes that name from the
      current period's folder and ends the flow whatever the store
      answered; a non-number or an out-of-range number asks again. */
  function OnDeleteChoice(m: Machine, text: string, env: Env): (r: (Machine, Reply))
    requires m.state == ChooseDeleteFile
    requires Valid(env.now)
    ensures ParseInt(text).None? ==> r == (m, NotANumber)
    ensures r.0.state == ChooseDeleteFile ==> r.0 == m
    ensures r.0.state == End ==> r.0.session == Cleared
    ensures ParseInt(text).Some?
            && (m.session.deleteCategory.None? || m.session.deleteCategory == Some("")
                || |m.session.deletableFiles.GetOr([])| == 0) ==>
              r == (Machine(End, Cleared, m.store), SessionExpired)
  {
    match ParseInt(text)
    case None => (m, NotANumber)
    case Some(choice) =>
      var names := m.session.deletableFiles.GetOr([]);
      var category := m.session.deleteCategory;
      if category.None? || category.value == "" || |names| == 0 then
        (Machine(End, Cleared, m.store), SessionExpired)
      else if 0 < choice <= |names| then
        var path := Path(category.value, PeriodName(env.now), names[choice - 1]);
        var (store, outcome) := Delete(m.store, path, env.deleteOk);
        (Machine(End, Cleared, store), DeleteResult(outcome))
      else (m, NumberOutOfRange)
  }

  // ---------------------------------------------------------------------
  // Edit flow
  // ---------------------------------------------------------------------

  /** `choose_edit_category`: keep the whole sorted listing (also the keys
      that do not read back, which are not shown). */
  function OnEditCategory(m: Machine, data: string, env: Env): (r: (Machine, Reply))
    requires m.state == ChooseEditCategory
    ensures r.0.store == m.store
    ensures r.0.state == ChooseEditFile ==>
              && env.listing.Some? && |env.listing.value| > 0
              && r.0.session.editableFiles == Some(SortByDate(env.listing.value))
    ensures CallbackArg(data).None? ==> r == (m, Raised)
    ensures CallbackArg(data).Some? && (env.listing.None? || |env.listing.value| == 0) ==>
              r == (Machine(End, Cleared, m.store), NothingListed)
    ensures CallbackArg(data).Some? && env.listing.Some? && |env.listing.value| > 0 ==>
              && r.0.state == ChooseEditFile
              && r.0.session == m.session.(editCategory := CallbackArg(data),
                                           editableFiles := Some(SortByDate(env.listing.value)))
              && r.1 == FilesShown(DecodableCount(SortByDate(env.listing.value)))
  {
    match CallbackArg(data)
    case None => (m, Raised)
    case Some(category) =>
      match env.listing
      case None => (Machine(End, Cleared, m.store), NothingListed)
      case Some(files) =>
        if |files| == 0 then (Machine(End, Cleared, m.store), NothingListed)
        else
          var sorted := SortByDate(files);
          var session := m.session.(editCategory := Some(category), editableFiles := Some(sorted));
          (m.(state := ChooseEditFile, session := session), FilesShown(DecodableCount(sorted)))
  }

  /** `choose_edit_file`: a number in range remembers the position it
      names (counting from one) and asks which field to change; a
      non-number or an out-of-range number asks again. */
  function OnEditChoice(m: Machine, text: string): (r: (Machine, Reply))
    requires m.state == ChooseEditFile
    ensures r.0.store == m.store
    ensures ParseInt(text).None? ==> r == (m, NotANumber)
    ensures r.0.state == ChooseEditField <==>
              && ParseInt(text).Some? && m.session.editableFiles.Some?
              && 0 < ParseInt(text).value <= |m.session.editableFiles.value|
    ensures r.0.state == ChooseEditField ==>
              && r.0.session == m.session.(editFileIndex := Some(ParseInt(text).value - 1))
              && r.0.session.editFileIndex.value < |m.session.editableFiles.value|
    ensures r.0.state != ChooseEditField ==> r.0 == m
  {
    match ParseInt(text)
    case None => (m, NotANumber)
    case Some(choice) =>
      match m.session.editableFiles
      case None => (m, Raised)
      case Some(files) =>
        if !(0 < choice <= |files|) then (m, NumberOutOfRange)
        else (m.(state := ChooseEditField, session := m.session.(editFileIndex := Some(choice - 1))), AskField)
  }

  /** `choose_edit_field`: the second piece of the button data is the
      field to change; the flow then asks for its new value. */
  function OnEditField(m: Machine, data: string): (r: (Machine, Reply))
    requires m.state == ChooseEditField
    ensures r.0.store == m.store
    ensures CallbackArg(data).None? ==> r == (m, Raised)
    ensures CallbackArg(data).Some? ==>
              && r.0.state == GetNewValue
              && r.0.session == m.session.(editField := CallbackArg(data))
  {
    match CallbackArg(data)
    case None => (m, Raised)
    case Some(field) => (m.(state := GetNewValue, session := m.session.(editField := Some(field))), AskNewValue)
  }

  /** `get_new_value_and_save`: compute the new key; if it equals the old
      one stop without touching the store, otherwise rename the object by
      download, delete and upload. Every accepted value ends the flow and
      clears the session (the `finally`). */
  function OnNewValue(m: Machine, text: string, env: Env): (r: (Machine, Reply))
    requires m.state == GetNewValue
    requires Valid(env.now)
    ensures r.0.state == GetNewValue || r.0.state == End
    ensures r.0.state == GetNewValue ==> r.0 == m
    ensures r.0.state == End ==> r.0.session == Cleared
    ensures r.0.state == GetNewValue <==>
              m.session.editField.None? || (m.session.editField == Some("bia") && !IsDigits(text))
    ensures m.session.editField.None? ==> r == (m, Raised)
    ensures m.session.editField == Some("bia") && !IsDigits(text) ==> r == (m, AmountNotNumeric)
  {
    match m.session.editField
    case None => (m, Raised)
    case Some(field) =>
      if field == "bia" && !IsDigits(text) then (m, AmountNotNumeric)
      else
        var s := m.session;
        if s.editCategory.None? || s.editableFiles.None? || s.editFileIndex.None?
           || s.editFileIndex.value >= |s.editableFiles.value| then
          (Machine(End, Cleared, m.store), InternalError)
        else
          var original := s.editableFiles.value[s.editFileIndex.value].name;
          var renamed := RewriteKey(original, field, text);
          if renamed == original then (Machine(End, Cleared, m.store), NoChange)
          else
            var folder := PeriodName(env.now);
            var (store, outcome) :=
              Rename(m.store, Path(s.editCategory.value, folder, original), Path(s.editCategory.value, folder, renamed),
                     env.stamp, env.downloadOk, env.deleteOk, env.uploadOk);
            (Machine(End, Cleared, store), EditResult(outcome))
  }

  // ---------------------------------------------------------------------
  // Dispatch
  // ---------------------------------------------------------------------

  /** `cancel`: the `/batal` fallback of every conversation. */
  function OnCancel(m: Machine): (r: (Machine, Reply))
  {
    (Machine(End, Cleared, m.store), Cancelled)
  }

  /** One update. `entries` are the category commands registered when the
      bot started. A command starts a conversation only when none is going
      on; while one is, only `/batal` is taken, and each state takes only
      the kind of update its handler is registered for. */
  function Step(entries: seq<string>, m: Machine, ev: Event, env: Env): (r: (Machine, Reply))
    requires Valid(env.now)
  {
    match ev
    case Command(word, rest) =>
      if m.state == End then OnCommandAtEnd(entries, m, word, rest)
      else if Lower(word) == "batal" then OnCancel(m)
      else (m, Ignored)
    case Photo(fileId) =>
      if m.state == GetPhoto then OnPhoto(m, fileId, env) else (m, Ignored)
    case Text(text) =>
      (match m.state
       case GetKeterangan => OnNote(m, text)
       case GetBiaya => OnAmount(m, text, env)
       case ChooseDeleteFile => OnDeleteChoice(m, text, env)
       case ChooseEditFile => OnEditChoice(m, text)
       case GetNewValue => OnNewValue(m, text, env)
       case _ => (m, Ignored))
    case Callback(data) =>
      if m.state == AskContinue && StartsWith(data, "continue_") then OnContinue(m, data)
      else if m.state == ChooseDeleteCategory && StartsWith(data, "delcat_") then OnDeleteCategory(m, data, env)
      else if m.state == ChooseEditCategory && StartsWith(data, "editcat_") then OnEditCategory(m, data, env)
      else if m.state == ChooseEditField && StartsWith(data, "editfield_") then OnEditField(m, data)
      else (m, Ignored)
  }

  // ---------------------------------------------------------------------
  // The session invariant
  // ---------------------------------------------------------------------

  /** What each state can rely on finding in the session. Outside a
      conversation, and when a menu has just been shown, the session is
      empty. */
  predicate Inv(m: Machine)
  {
    var s := m.session;
    match m.state
    case End => s == Cleared
    case ChooseDeleteCategory => s == Cleared
    case ChooseEditCategory => s == Cleared
    case GetPhoto => s.category.Some? && s.noPhoto == Some(false)
    case GetKeterangan =>
      s.category.Some? && s.noPhoto.Some? && (s.noPhoto == Some(false) ==> s.photoFileId.Some?)
    case GetBiaya =>
      && s.category.Some? && s.noPhoto.Some? && (s.noPhoto == Some(false) ==> s.photoFileId.Some?)
      && s.keterangan.Some?
    case AskContinue => s.category.Some? && s.noPhoto.Some?
    case ChooseDeleteFile => s.deleteCategory.Some? && s.deletableFiles.Some?
    case ChooseEditFile => s.editCategory.Some? && s.editableFiles.Some?
    case ChooseEditField =>
      && s.editCategory.Some? && s.editableFiles.Some?
      && s.editFileIndex.Some? && s.editFileIndex.value < |s.editableFiles.value|
    case GetNewValue =>
      && s.editCategory.Some? && s.editableFiles.Some?
      && s.editFileIndex.Some? && s.editFileIndex.value < |s.editableFiles.value|
      && s.editField.Some?
  }

  /** The initial machine: no conversation, empty session. */
  lemma InitialInv(store: Store)
    ensures Inv(Machine(End, Cleared, store))
  {
  }

  /** Every update keeps the invariant. */
  lemma StepPreservesInv(entries: seq<string>, m: Machine, ev: Event, env: Env)
    requires Valid(env.now) && Inv(m)
    ensures Inv(Step(entries, m, ev, env).0)
  {
    match ev
    case Command(word, rest) =>
    case Photo(fileId) =>
    case Text(text) =>
    case Callback(data) =>
      if m.state == AskContinue && StartsWith(data, "continue_") {
        var noPhoto := m.session.noPhoto.value;
        assert m.session.noPhoto == Some(noPhoto);
      }
  }

  /** Under the invariant a handler fails outside its `try` only when
      fetching the photo fails. */
  lemma NoRaiseUnderInv(entries: seq<string>, m: Machine, ev: Event, env: Env)
    requires Valid(env.now) && Inv(m)
    requires ev.Photo? ==> env.photoFetchOk
    ensures Step(entries, m, ev, env).1 != Raised
  {
    if ev.Callback? {
      var d := ev.data;
      if m.state == ChooseDeleteCategory && StartsWith(d, "delcat_") {
        PrefixedCallbackArg(d, "delcat");
      } else if m.state == ChooseEditCategory && StartsWith(d, "editcat_") {
        PrefixedCallbackArg(d, "editcat");
      } else if m.state == ChooseEditField && StartsWith(d, "editfield_") {
        PrefixedCallbackArg(d, "editfield");
      }
    }
  }

  // ---------------------------------------------------------------------
  // What the flows do
  // ---------------------------------------------------------------------

  /** `/batal` (in any letter case) ends whatever conversation is going on,
      forgets the session and leaves the store alone. */
  lemma CancelEndsConversation(entries: seq<string>, m: Machine, word: string, rest: string, env: Env)
    requires Valid(env.now) && m.state != End && Lower(word) == "batal"
    ensures Step(entries, m, Command(word, rest), env) == (Machine(End, Cleared, m.store), Cancelled)
  {
  }

  /** Only three handlers write to the store: saving an amount, choosing the
      file to delete and giving the new value of an edit. */
  lemma StoreChangesOnlyOnCommit(entries: seq<string>, m: Machine, ev: Event, env: Env)
    requires Valid(env.now)
    ensures Step(entries, m, ev, env).0.store != m.store ==>
              && ev.Text?
              && (m.state == GetBiaya || m.state == ChooseDeleteFile || m.state == GetNewValue)
  {
  }

  /** As the handler is written, a category command starts the add flow
      for the whole lower-cased text after the slash; it skips the photo
      exactly when that text is `lembur`. */
  lemma StartAddFlowAsWritten(entries: seq<string>, m: Machine, word: string, rest: string, env: Env)
    requires Valid(env.now) && m.state == End && Lower(word) in entries
    ensures var m' := Step(entries, m, Command(word, rest), env).0;
      && m'.store == m.store
      && m'.session.category == Some(Lower(word + rest))
      && m'.session.noPhoto == Some(Lower(word + rest) == Overtime)
      && (m'.state == GetKeterangan <==> Lower(word + rest) == Overtime)
      && (m'.state == GetPhoto <==> Lower(word + rest) != Overtime)
  {
  }

  /** With anything after the command word (an `@botname` suffix, an
      argument), the handler as written records under a category that is
      not the command word that selected it, and `/lembur` followed by
      anything asks for a photo. */
  lemma AsWrittenCategoryEscapesRegistry(entries: seq<string>, m: Machine, word: string, rest: string, env: Env)
    requires Valid(env.now) && m.state == End && Lower(word) in entries && |rest| > 0
    ensures var m' := Step(entries, m, Command(word, rest), env).0;
      && m'.session.category.Some?
      && m'.session.category.value != Lower(word)
      && (Lower(word) == Overtime ==> m'.state == GetPhoto && m'.session.noPhoto == Some(false))
  {
    StartAddFlowAsWritten(entries, m, word, rest, env);
  }

  /** The commands registered when no list is saved yet. */
  const DefaultCommands: seq<string> := ["grab", "mrt", "bensin", "parkir", "lembur"]

  /** `/grab@rembesbot`, the form a group chat sends, is matched as `grab`
      but records under `grab@rembesbot`, which is not registered. */
  lemma GroupChatCommandCategory()
    ensures Lower("grab") in DefaultCommands
    ensures AddCategoryAsWritten("grab", "@rembesbot") == "grab@rembesbot"
    ensures "grab@rembesbot" !in DefaultCommands
  {
    LowerKeeps("grab");
    LowerKeeps("grab" + "@rembesbot");
    assert "grab" + "@rembesbot" == "grab@rembesbot";
    assert forall c :: c in DefaultCommands ==> |c| < 14;
  }

  /** With the category taken from the command word, the add flow always
      records under a registered category, and skips the photo exactly for
      `lembur`. */
  lemma StartAddFlow(entries: seq<string>, m: Machine, word: string, rest: string)
    requires m.state == End && Lower(word) in entries
    ensures var m' := OnCommandAtEndCorrected(entries, m, word, rest).0;
      && m'.store == m.store
      && m'.session.category.Some? && m'.session.category.value in entries
      && m'.session.category == Some(Lower(word))
      && m'.session.noPhoto == Some(Lower(word) == Overtime)
      && (m'.state == GetKeterangan <==> Lower(word) == Overtime)
      && (m'.state == GetPhoto <==> Lower(word) != Overtime)
  {
  }

  /** Without anything after the command word the handler as written and
      the corrected one agree. */
  lemma CorrectedAgreesWithoutSuffix(entries: seq<string>, m: Machine, word: string)
    requires m.state == End
    ensures OnCommandAtEnd(entries, m, word, "") == OnCommandAtEndCorrected(entries, m, word, "")
  {
    assert word + "" == word;
  }

  /** A numeric amount with every remote call working stores the record
      under its encoded key in the current period's folder of the
      category, with the photo (or, for a photo-less entry, a placeholder
      carrying note and amount); the key reads back with the amount typed.
      The conversation then asks whether to add another. */
  lemma AmountSavesRecord(entries: seq<string>, m: Machine, text: string, env: Env)
    requires Valid(env.now) && Inv(m) && m.state == GetBiaya && IsDigits(text)
    requires env.uploadOk && env.photoFetchOk && (env.groupChat ==> env.notifyOk)
    ensures var (m', reply) := Step(entries, m, Text(text), env);
      var s := m.session;
      var path := RecordPath(s.category.value, s.keterangan.value, text, env.now);
      && reply == SavedAskContinue
      && m'.state == AskContinue && m'.session == s
      && path in m'.store && m'.store[path].created == env.stamp
      && (s.noPhoto == Some(true) ==> m'.store[path].blob == Placeholder(s.keterangan.value, Value(text)))
      && (s.noPhoto == Some(false) ==> m'.store[path].blob == Blob.Photo(s.photoFileId.value))
      && DecodeKey(path.name).Some? && DecodeKey(path.name).value.amount == Value(text)
      && (forall q :: q != path ==> (q in m'.store <==> q in m.store))
      && (forall q :: q != path && q in m.store ==> m'.store[q] == m.store[q])
  {
    var s := m.session;
    assert Step(entries, m, Text(text), env) == OnAmount(m, text, env);
    OnAmountSaves(m, text, env);
    RecordPathDecodes(s.category.value, s.keterangan.value, text, env.now);
  }

  lemma OnAmountSaves(m: Machine, text: string, env: Env)
    requires Valid(env.now) && Inv(m) && m.state == GetBiaya && IsDigits(text)
    requires env.uploadOk && env.photoFetchOk && (env.groupChat ==> env.notifyOk)
    ensures var (m', reply) := OnAmount(m, text, env);
      var s := m.session;
      var path := RecordPath(s.category.value, s.keterangan.value, text, env.now);
      && reply == SavedAskContinue
      && m'.state == AskContinue && m'.session == s
      && path in m'.store && m'.store[path].created == env.stamp
      && (s.noPhoto == Some(true) ==> m'.store[path].blob == Placeholder(s.keterangan.value, Value(text)))
      && (s.noPhoto == Some(false) ==> m'.store[path].blob == Blob.Photo(s.photoFileId.value))
      && (forall q :: q != path ==> (q in m'.store <==> q in m.store))
      && (forall q :: q != path && q in m.store ==> m'.store[q] == m.store[q])
  {
    var noPhoto := m.session.noPhoto.value;
    assert m.session.noPhoto == Some(noPhoto);
  }

  /** The key a record is stored under reads back with the amount typed. */
  lemma RecordPathDecodes(category: string, note: string, amount: string, now: DateTime)
    requires Valid(now) && IsDigits(amount)
    ensures DecodeKey(RecordPath(category, note, amount, now).name).Some?
    ensures DecodeKey(RecordPath(category, note, amount, now).name).value.amount == Value(amount)
  {
    DecodeEncoded(now, note, amount);
  }

  /** A failed upload stores nothing and ends the flow; a failed group
      notification also ends it, but after the record was stored. */
  lemma AmountFailures(entries: seq<string>, m: Machine, text: string, env: Env)
    requires Valid(env.now) && Inv(m) && m.state == GetBiaya && IsDigits(text)
    requires m.session.noPhoto == Some(false) ==> env.photoFetchOk
    ensures var (m', reply) := Step(entries, m, Text(text), env);
      && (!env.uploadOk ==> m' == Machine(End, Cleared, m.store) && reply == UploadFailed)
      && (env.uploadOk && env.groupChat && !env.notifyOk ==>
            && m'.state == End && m'.session == Cleared && reply == InternalError
            && RecordPath(m.session.category.value, m.session.keterangan.value, text, env.now) in m'.store)
  {
    var noPhoto := m.session.noPhoto.value;
    assert m.session.noPhoto == Some(noPhoto);
  }

  /** "Yes, another one" keeps the category and the photo setting, forgets
      the photo and the note and asks for the next photo (or note, for a
      photo-less category); any other answer ends the flow. */
  lemma ContinueAnswer(entries: seq<string>, m: Machine, data: string, env: Env)
    requires Valid(env.now) && Inv(m) && m.state == AskContinue && StartsWith(data, "continue_")
    ensures var (m', reply) := Step(entries, m, Callback(data), env);
      && m'.store == m.store
      && (data == "continue_yes" ==>
            && m'.session == m.session.(photoFileId := None, keterangan := None)
            && (m'.state == GetKeterangan <==> m.session.noPhoto == Some(true))
            && (m'.state == GetPhoto <==> m.session.noPhoto == Some(false)))
      && (data != "continue_yes" ==> m'.state == End && m'.session == Cleared)
  {
    var noPhoto := m.session.noPhoto.value;
    assert m.session.noPhoto == Some(noPhoto);
  }

  /** Choosing a listed number deletes exactly that name from the current
      period's folder of the chosen category and ends the flow, whatever
      the store answers; no other object is touched. */
  lemma DeleteChoice(entries: seq<string>, m: Machine, text: string, env: Env, choice: nat)
    requires Valid(env.now) && m.state == ChooseDeleteFile && ParseInt(text) == Some(choice)
    requires m.session.deleteCategory.Some? && m.session.deleteCategory.value != ""
    requires m.session.deletableFiles.Some? && 0 < choice <= |m.session.deletableFiles.value|
    ensures var (m', reply) := Step(entries, m, Text(text), env);
      var path := Path(m.session.deleteCategory.value, PeriodName(env.now), m.session.deletableFiles.value[choice - 1]);
      && m'.state == End && m'.session == Cleared
      && reply.DeleteResult?
      && (reply.deleted.DeleteFailed? <==> !env.deleteOk)
      && (reply.deleted.Deleted? <==> env.deleteOk && path in m.store)
      && (env.deleteOk ==> path !in m'.store)
      && (forall q :: q != path ==> (q in m'.store <==> q in m.store))
      && (forall q :: q != path && q in m.store ==> m'.store[q] == m.store[q])
  {
  }

  /** A number outside the list, or text that is not a number, leaves
      everything as it is and asks again. */
  lemma DeleteChoiceRejected(entries: seq<string>, m: Machine, text: string, env: Env)
    requires Valid(env.now) && m.state == ChooseDeleteFile
    requires m.session.deleteCategory.Some? && m.session.deleteCategory.value != ""
    requires m.session.deletableFiles.Some? && |m.session.deletableFiles.value| > 0
    requires ParseInt(text).None? || ParseInt(text).value == 0 || ParseInt(text).value > |m.session.deletableFiles.value|
    ensures Step(entries, m, Text(text), env).0 == m
  {
  }

  /** Every name the delete menu offers is a key of the listed folder that
      reads back. */
  lemma DeleteMenuOffersListedKeys(entries: seq<string>, m: Machine, data: string, env: Env)
    requires Valid(env.now) && m.state == ChooseDeleteCategory && StartsWith(data, "delcat_")
    ensures var m' := Step(entries, m, Callback(data), env).0;
      m'.state == ChooseDeleteFile ==>
        forall n :: n in m'.session.deletableFiles.value ==>
          Decodes(n) && exists i :: 0 <= i < |env.listing.value| && env.listing.value[i].name == n
  {
    var m' := Step(entries, m, Callback(data), env).0;
    if m'.state == ChooseDeleteFile {
      var files := env.listing.value;
      var sorted := SortByDate(files);
      DeletableMembers(sorted);
      forall n | n in m'.session.deletableFiles.value
        ensures exists i :: 0 <= i < |files| && files[i].name == n
      {
        var j :| 0 <= j < |Deletable(sorted)| && Deletable(sorted)[j] == n;
        var k := Source(sorted, j);
        assert sorted[k] in multiset(files);
        var i :| 0 <= i < |files| && files[i] == sorted[k];
      }
    }
  }

  /** Typing the number the edit menu prints next to an entry selects
      that entry of the sorted listing; nothing else in the session or the
      store changes. */
  lemma EditChoiceSelectsShown(entries: seq<string>, m: Machine, text: string, env: Env, j: nat)
    requires Valid(env.now) && m.state == ChooseEditFile
    requires m.session.editableFiles.Some? && j < |m.session.editableFiles.value|
    requires ParseInt(text) == Some(ShownNumberAsWritten(m.session.editableFiles.value, j))
    ensures var (m', reply) := Step(entries, m, Text(text), env);
      && reply == AskField
      && m'.state == ChooseEditField
      && m'.store == m.store
      && m'.session == m.session.(editFileIndex := Some(j))
  {
  }

  /** Choosing the field from the button `editfield_<field>` records that
      field and asks for the new value. */
  lemma EditFieldChosen(entries: seq<string>, m: Machine, field: string, env: Env)
    requires Valid(env.now) && m.state == ChooseEditField && '_' !in field
    ensures var (m', reply) := Step(entries, m, Callback("editfield_" + field), env);
      && reply == AskNewValue
      && m'.state == GetNewValue
      && m'.store == m.store
      && m'.session == m.session.(editField := Some(field))
  {
    var data := "editfield_" + field;
    assert data[|"editfield"| + 1..] == field;
    PrefixedCallbackArg(data, "editfield");
    SplitNoSeparator(field, '_');
  }

  /** When the store's answer is an exact listing of the folder, every
      name the delete menu offers is a stored object of that folder, so
      choosing it with a working store deletes something that was there. */
  lemma DeleteMenuNamesStored(entries: seq<string>, m: Machine, data: string, env: Env)
    requires Valid(env.now) && m.state == ChooseDeleteCategory && StartsWith(data, "delcat_")
    requires CallbackArg(data).Some? && env.listing.Some?
    requires ListingOf(m.store, CallbackArg(data).value, PeriodName(env.now), env.listing.value)
    ensures var m' := Step(entries, m, Callback(data), env).0;
      m'.state == ChooseDeleteFile ==>
        && m'.session.deleteCategory == CallbackArg(data)
        && forall n :: n in m'.session.deletableFiles.value ==>
             Delete(m.store, Path(CallbackArg(data).value, PeriodName(env.now), n), true).1 == Deleted
  {
    var m' := Step(entries, m, Callback(data), env).0;
    DeleteMenuOffersListedKeys(entries, m, data, env);
    if m'.state == ChooseDeleteFile {
      var files := env.listing.value;
      forall n | n in m'.session.deletableFiles.value
        ensures Delete(m.store, Path(CallbackArg(data).value, PeriodName(env.now), n), true).1 == Deleted
      {
        var i :| 0 <= i < |files| && files[i].name == n;
        ListedNameIsStored(m.store, CallbackArg(data).value, PeriodName(env.now), files, i);
      }
    }
  }

  /** Giving the new value of an edit ends the flow and clears the session
      in every case. An unchanged key touches nothing; otherwise the object
      moves from its old key to the rewritten one, and the four outcomes of
      the move are told apart. */
  lemma EditNewValue(entries: seq<string>, m: Machine, text: string, env: Env)
    requires Valid(env.now) && Inv(m) && m.state == GetNewValue
    requires m.session.editField.value == "bia" ==> IsDigits(text)
    ensures var (m', reply) := Step(entries, m, Text(text), env);
      var s := m.session;
      var original := s.editableFiles.value[s.editFileIndex.value].name;
      var renamed := RewriteKey(original, s.editField.value, text);
      var from := Path(s.editCategory.value, PeriodName(env.now), original);
      var to := Path(s.editCategory.value, PeriodName(env.now), renamed);
      && m'.state == End && m'.session == Cleared
      && (renamed == original ==> reply == NoChange && m'.store == m.store)
      && (renamed != original ==>
            && reply.EditResult?
            && (reply.edited == Saved <==> env.downloadOk && from in m.store && env.deleteOk && env.uploadOk)
            && (reply.edited == Saved ==> m'.store[to].blob == m.store[from].blob && from !in m'.store)
            && (reply.edited == UploadNewFailed ==> m'.store == m.store - {from})
            && (reply.edited == DownloadFailed || reply.edited == DeleteOldFailed ==> m'.store == m.store))
  {
  }
}

=== FILE: decimal.dfy ===
/** Decimal digit strings: Python's `int(s)` on the amounts stored in keys,
    and the zero-padded renderings used by `strftime` and `{:02d}`. */
module Decimal {
  import opened Wrappers
  import opened Strings

  predicate AllDigits(s: string)
  {
    forall i :: 0 <= i < |s| ==> IsAsciiDigit(s[i])
  }

  function DigitValue(c: char): nat
    requires IsAsciiDigit(c)
  {
    c as int - '0' as int
  }

  function DigitChar(d: nat): (c: char)
    requires d < 10
    ensures IsAsciiDigit(c) && DigitValue(c) == d
  {
    ('0' as int + d) as char
  }

  function Pow10(k: nat): (p: nat)
    ensures p >= 1
  {
    if k == 0 then 1 else 10 * Pow10(k - 1)
  }

  /** The number a string of digits denotes; leading zeros are allowed. */
  function Value(s: string): nat
    requires AllDigits(s)
  {
    if |s| == 0 then 0 else Value(s[..|s| - 1]) * 10 + DigitValue(s[|s| - 1])
  }

  /** Python's `int(s)`, approximated: it succeeds exactly on a non-empty
      string of ASCII digits, and `None` stands for the `ValueError`. */
  function ParseInt(s: string): (r: Option<nat>)
    ensures r.Some? <==> IsDigits(s)
  {
    if IsDigits(s) then Some(Value(s)) else None
  }

  /** `str(n)` for a natural number: digits, no leading zero. */
  function Render(n: nat): (s: string)
    ensures IsDigits(s)
    ensures Value(s) == n
    ensures s[0] == '0' ==> s == "0"
  {
    if n < 10 then [DigitChar(n)]
    else
      var s := Render(n / 10) + [DigitChar(n % 10)];
      assert s[..|s| - 1] == Render(n / 10);
      s
  }

  function Zeros(k: nat): (s: string)
    ensures |s| == k && AllDigits(s) && Value(s) == 0
  {
    if k == 0 then []
    else
      var s := Zeros(k - 1) + ['0'];
      assert s[..|s| - 1] == Zeros(k - 1);
      s
  }

  /** The value of a concatenation of digit strings. */
  lemma {:induction false} ValueAppend(a: string, b: string)
    requires AllDigits(a) && AllDigits(b)
    ensures AllDigits(a + b)
    ensures Value(a + b) == Value(a) * Pow10(|b|) + Value(b)
  {
    if |b| > 0 {
      var ab := a + b;
      assert ab[..|ab| - 1] == a + b[..|b| - 1];
      ValueAppend(a, b[..|b| - 1]);
      assert Value(ab) == Value(a + b[..|b| - 1]) * 10 + DigitValue(b[|b| - 1]);
      assert Value(b) == Value(b[..|b| - 1]) * 10 + DigitValue(b[|b| - 1]);
      ShiftDigit(Value(a), Pow10(|b| - 1), Value(b[..|b| - 1]), DigitValue(b[|b| - 1]));
    } else {
      assert a + b == a;
    }
  }

  lemma ShiftDigit(x: nat, p: nat, y: nat, d: nat)
    ensures (x * p + y) * 10 + d == x * (10 * p) + (y * 10 + d)
  {
  }

  /** `{n:0{width}d}` / `strftime`'s zero padding: `Render(n)` with zeros in
      front up to `width` characters. */
  function Pad(n: nat, width: nat): (s: string)
    ensures IsDigits(s)
    ensures Value(s) == n
    ensures |Render(n)| <= width ==> |s| == width
  {
    var digits := Render(n);
    var s := Zeros(if |digits| < width then width - |digits| else 0) + digits;
    ValueAppend(Zeros(if |digits| < width then width - |digits| else 0), digits);
    s
  }

  /** A number below `10^width` renders in at most `width` digits, so its
      padding has exactly `width` characters. */
  lemma {:induction false} RenderFits(n: nat, width: nat)
    requires width >= 1 && n < Pow10(width)
    ensures |Render(n)| <= width
  {
    if n >= 10 {
      assert width >= 2;
      RenderFits(n / 10, width - 1);
    }
  }

  /** Different numbers have different paddings (the padding can be parsed back). */
  lemma PadInjective(m: nat, n: nat, width: nat)
    requires Pad(m, width) == Pad(n, width)
    ensures m == n
  {
  }

  /** A digit string contains no other character. */
  lemma DigitsHaveNo(s: string, c: char)
    requires AllDigits(s) && !IsAsciiDigit(c)
    ensures c !in s
  {
  }
}

=== FILE: keycodec.dfy ===
/** The record codec: how one reimbursement (time of entry, free-text note,
    amount) becomes the name of the object that stores its receipt, and how
    the listing, deletion and edit handlers read such a name back.

    The encoder writes `{%Y%m%d_%H%M%S}_{sanitised note}_{amount}.jpg`; the
    readers delete every `.jpg`, split on `_`, and take the first piece as
    the timestamp, the last as the amount and the ones in between as the
    note. Because the timestamp itself contains `_`, the "timestamp" the
    readers see is only the date, and the time of day becomes the first
    word of the note. */
module KeyCodec {
  import opened Wrappers
  import opened Strings
  import opened Decimal
  import opened Period

  /** The extension every key is written with; the readers delete it
      wherever it occurs in the name. */
  const Extension: string := ".jpg"

  // ---------------------------------------------------------------------
  // Sanitising the note
  // ---------------------------------------------------------------------

  /** `[\w\-_\.]`, with `\w` read as ASCII letters, digits and `_`. */
  predicate IsKeyChar(c: char)
  {
    IsAsciiLetter(c) || IsAsciiDigit(c) || c == '_' || c == '-' || c == '.'
  }

  predicate IsKeyText(s: string)
  {
    forall i :: 0 <= i < |s| ==> IsKeyChar(s[i])
  }

  /** `re.sub(r'[^\w\-_\.]', '_', s)`: character for character, allowed
      characters are kept and every other one becomes `_`. */
  function Sanitize(s: string): (r: string)
    ensures |r| == |s|
    ensures forall i :: 0 <= i < |s| && IsKeyChar(s[i]) ==> r[i] == s[i]
    ensures forall i :: 0 <= i < |s| && !IsKeyChar(s[i]) ==> r[i] == '_'
    ensures IsKeyText(r)
  {
    if |s| == 0 then []
    else [if IsKeyChar(s[0]) then s[0] else '_'] + Sanitize(s[1..])
  }

  /** Sanitising changes exactly the strings that hold a disallowed character. */
  lemma SanitizeFixedPoints(s: string)
    ensures Sanitize(s) == s <==> IsKeyText(s)
  {
    if IsKeyText(s) {
      assert forall i :: 0 <= i < |s| ==> Sanitize(s)[i] == s[i];
    }
  }

  /** Sanitising twice is sanitising once. */
  lemma SanitizeIdempotent(s: string)
    ensures Sanitize(Sanitize(s)) == Sanitize(s)
  {
    SanitizeFixedPoints(Sanitize(s));
  }

  /** Sanitising is not injective: a space and an underscore give the same
      note, so two different notes can produce the same key. */
  lemma SanitizeMergesNotes()
    ensures "a b" != "a_b" && Sanitize("a b") == Sanitize("a_b")
  {
    assert "a b"[1] != "a_b"[1];
    assert Sanitize("a b") == "a_b";
    assert Sanitize("a_b") == "a_b";
  }

  /** More generally, a disallowed character and an underscore (or any
      other disallowed character) in the same place give the same key
      text. */
  lemma SanitizeForgetsDisallowed(s: string, i: nat, c: char)
    requires i < |s| && !IsKeyChar(s[i]) && (c == '_' || !IsKeyChar(c))
    ensures Sanitize(s[i := c]) == Sanitize(s)
  {
  }

  /** Text built only from allowed characters keeps that property when
      occurrences of `.jpg` are deleted from it. */
  lemma RemoveAllKeepsKeyText(s: string)
    requires IsKeyText(s)
    ensures IsKeyText(RemoveAll(s, Extension))
  {
    var r := RemoveAll(s, Extension);
    RemoveAllKeepsChars(s, Extension);
    forall i | 0 <= i < |r|
      ensures IsKeyChar(r[i])
    {
      assert r[i] in s;
    }
  }

  // ---------------------------------------------------------------------
  // Encoding
  // ---------------------------------------------------------------------

  /** The key under which the add flow stores a record created at `now`,
      with the user's note and the amount exactly as typed. */
  function EncodeKey(now: DateTime, note: string, amount: string): string
    requires Valid(now)
  {
    Timestamp(now) + "_" + Sanitize(note) + "_" + amount + Extension
  }

  // ---------------------------------------------------------------------
  // Decoding, as the listing handlers do it
  // ---------------------------------------------------------------------

  /** `name.replace(".jpg", "").split("_")`. */
  function KeyParts(name: string): (parts: seq<string>)
    ensures |parts| >= 1
  {
    Split(RemoveAll(name, Extension), '_')
  }

  /** What a listing handler reads from a key: `parts[0]`, `parts[1:-1]`
      (shown joined by spaces) and `int(parts[-1])`. */
  datatype Record = Record(stamp: string, words: seq<string>, amount: nat)

  /** `None` is the `ValueError` of `int(parts[-1])`, the only way the
      readers' parse can fail: `parts[0]` and `parts[-1]` always exist. */
  function DecodeKey(name: string): Option<Record>
  {
    var parts := KeyParts(name);
    match ParseInt(Last(parts))
    case None => None
    case Some(n) => Some(Record(parts[0], Middle(parts), n))
  }

  predicate Decodes(name: string)
  {
    DecodeKey(name).Some?
  }

  /** A key decodes exactly when its last piece is a number; there is no
      minimum number of pieces. */
  lemma DecodesIff(name: string)
    ensures Decodes(name) <==> IsDigits(Last(KeyParts(name)))
  {
  }

  /** A key of one piece, such as `5000.jpg`, reads back: with an empty
      note and that piece as the amount. */
  lemma OnePieceKeyDecodes()
    ensures Decodes("5000.jpg")
  {
    assert "5000.jpg" == "5000" + Extension;
    RemoveAllSuffix("5000", Extension);
    SplitNoSeparator("5000", '_');
    assert KeyParts("5000.jpg") == ["5000"];
  }

  lemma NoDotNoExtension(s: string)
    requires '.' !in s
    ensures !Occurs(s, Extension)
  {
    forall i
      ensures !OccursAt(s, Extension, i)
    {
      if 0 <= i && i + 4 <= |s| {
        assert s[i..i + 4][0] == s[i];
      }
    }
  }

  lemma ShapeAssoc(p: string, n: string, a: string)
    ensures p + "_" + n + "_" + a + Extension == p + ("_" + (n + ("_" + a + Extension)))
  {
  }

  lemma Assoc3<T>(x: seq<T>, y: seq<T>, z: seq<T>)
    ensures x + (y + z) == x + y + z
  {
  }

  /** `_{a}.jpg` strips to `_{a}` for a numeric `a`. */
  lemma StripTail(a: string)
    requires IsDigits(a)
    ensures RemoveAll("_" + a + Extension, Extension) == "_" + a
  {
    assert "_" + a + Extension == ['_'] + (a + Extension);
    RemoveAllCons('_', a + Extension, Extension);
    DigitsHaveNo(a, '.');
    RemoveAllSuffix(a, Extension);
  }

  /** `_{n}_{a}.jpg` strips inside `n` and drops the final extension. */
  lemma StripNoteTail(n: string, a: string)
    requires IsDigits(a)
    ensures RemoveAll("_" + (n + ("_" + a + Extension)), Extension)
            == "_" + (RemoveAll(n, Extension) + "_" + a)
  {
    StripTail(a);
    RemoveAllAppend(n, "_" + a + Extension, Extension);
    RemoveAllCons('_', n + ("_" + a + Extension), Extension);
  }

  /** Stripping `{p}_{n}_{a}.jpg`, for numeric `a` and a `p` without
      `.jpg`, strips only inside `n` and the final extension. */
  lemma StripShape(p: string, n: string, a: string)
    requires !Occurs(p, Extension) && IsDigits(a)
    ensures RemoveAll(p + "_" + n + "_" + a + Extension, Extension)
            == p + "_" + (RemoveAll(n, Extension) + "_" + a)
  {
    var tail := "_" + (n + ("_" + a + Extension));
    ShapeAssoc(p, n, a);
    StripNoteTail(n, a);
    RemoveAllUnchanged(p, Extension);
    StripAfter(p, tail);
  }

  /** Stripping `p` followed by a piece that starts with `_`. */
  lemma StripAfter(p: string, tail: string)
    requires |tail| > 0 && tail[0] == '_'
    ensures RemoveAll(p + tail, Extension) == RemoveAll(p, Extension) + RemoveAll(tail, Extension)
  {
    assert Extension[1..] == "jpg";
    RemoveAllAppend(p, tail, Extension);
  }

  /** The pieces of `{p}_{r}_{a}` for numeric `a`. */
  lemma SplitShape(p: string, r: string, a: string)
    requires IsDigits(a)
    ensures Split(p + "_" + (r + "_" + a), '_') == Split(p, '_') + Split(r, '_') + [a]
  {
    SplitAppend(p, r + "_" + a, '_');
    SplitAppend(r, a, '_');
    DigitsHaveNo(a, '_');
    SplitNoSeparator(a, '_');
    Assoc3(Split(p, '_'), Split(r, '_'), [a]);
  }

  /** The pieces of any name of the shape `{p}_{n}_{a}.jpg` with a numeric
      `a`: the pieces of `p`, then the pieces of `n` once its own `.jpg`s
      are deleted, then `a`. */
  lemma KeyPartsOfShape(p: string, n: string, a: string)
    requires !Occurs(p, Extension) && IsDigits(a)
    ensures KeyParts(p + "_" + n + "_" + a + Extension)
            == Split(p, '_') + Split(RemoveAll(n, Extension), '_') + [a]
  {
    StripShape(p, n, a);
    SplitShape(p, RemoveAll(n, Extension), a);
  }

  /** The timestamp splits into its date and its time of day. */
  lemma SplitTimestamp(now: DateTime)
    requires Valid(now)
    ensures Split(Timestamp(now), '_') == [DateStamp(now), TimeStamp(now)]
    ensures !Occurs(Timestamp(now), Extension)
  {
    var d := DateStamp(now);
    var t := TimeStamp(now);
    DigitsHaveNo(d, '.');
    DigitsHaveNo(t, '.');
    DigitsHaveNo(d, '_');
    DigitsHaveNo(t, '_');
    SplitTwo(Timestamp(now), d, t);
  }

  /** `{d}_{t}` with no `_` or `.` in either half. */
  lemma SplitTwo(k: string, d: string, t: string)
    requires k == d + "_" + t
    requires '_' !in d && '_' !in t && '.' !in d && '.' !in t
    ensures Split(k, '_') == [d, t]
    ensures !Occurs(k, Extension)
  {
    assert '.' !in k;
    NoDotNoExtension(k);
    SplitAppend(d, t, '_');
    SplitNoSeparator(d, '_');
    SplitNoSeparator(t, '_');
  }

  /** The pieces of an encoded key: the date, the time of day, the pieces of
      the sanitised note (less any `.jpg` in it), and the amount. */
  lemma KeyPartsOfEncoded(now: DateTime, note: string, amount: string)
    requires Valid(now) && IsDigits(amount)
    ensures KeyParts(EncodeKey(now, note, amount))
            == [DateStamp(now), TimeStamp(now)]
               + Split(RemoveAll(Sanitize(note), Extension), '_') + [amount]
  {
    SplitTimestamp(now);
    KeyPartsOfShape(Timestamp(now), Sanitize(note), amount);
  }

  lemma EndsOfPieces(x: string, y: string, mid: seq<string>, z: string)
    ensures ([x, y] + mid + [z])[0] == x
    ensures Last([x, y] + mid + [z]) == z
    ensures Middle([x, y] + mid + [z]) == [y] + mid
  {
  }

  /** Round trip: reading back an encoded key with a numeric amount gives
      the date as the timestamp, the time of day as the first word of the
      note followed by the sanitised note's words, and the amount typed. */
  lemma DecodeEncoded(now: DateTime, note: string, amount: string)
    requires Valid(now) && IsDigits(amount)
    ensures DecodeKey(EncodeKey(now, note, amount))
            == Some(Record(DateStamp(now),
                           [TimeStamp(now)] + Split(RemoveAll(Sanitize(note), Extension), '_'),
                           Value(amount)))
  {
    KeyPartsOfEncoded(now, note, amount);
    EndsOfPieces(DateStamp(now), TimeStamp(now), Split(RemoveAll(Sanitize(note), Extension), '_'), amount);
  }

  /** A number `a·10⁴ + b·10² + c` with two-digit `b` and `c` determines
      `a`, `b` and `c`. */
  lemma Unstamp(a: int, b: int, c: int, a': int, b': int, c': int)
    requires 0 <= b < 100 && 0 <= c < 100 && 0 <= b' < 100 && 0 <= c' < 100
    requires a * 10000 + b * 100 + c == a' * 10000 + b' * 100 + c'
    ensures a == a' && b == b' && c == c'
  {
    var v := (a * 100 + b) * 100 + c;
    var v' := (a' * 100 + b') * 100 + c';
    assert v == v';
    assert v % 100 == c && v' % 100 == c';
    assert v / 100 == a * 100 + b && v' / 100 == a' * 100 + b';
  }

  /** Where the timestamp halves and the note-and-amount sit in a key. */
  lemma KeySlices(now: DateTime, note: string, amount: string)
    requires Valid(now)
    ensures var k := EncodeKey(now, note, amount);
            && |k| == 21 + |Sanitize(note)| + |amount|
            && k[..8] == DateStamp(now)
            && k[9..15] == TimeStamp(now)
            && k[16..|k| - 4] == Sanitize(note) + "_" + amount
  {
    var k := EncodeKey(now, note, amount);
    var d, t, n := DateStamp(now), TimeStamp(now), Sanitize(note);
    assert k == d + "_" + t + "_" + n + "_" + amount + Extension;
    KeyLayout(k, d, t, n, amount, Extension);
  }

  /** In `{x}_{a}` with numeric `a`, the last `_` separates `x` from `a`. */
  lemma {:induction false} SplitOffAmount(x1: string, a1: string, x2: string, a2: string)
    requires IsDigits(a1) && IsDigits(a2)
    requires x1 + "_" + a1 == x2 + "_" + a2
    ensures x1 == x2 && a1 == a2
  {
    DigitsHaveNo(a1, '_');
    DigitsHaveNo(a2, '_');
    SplitAppend(x1, a1, '_');
    SplitAppend(x2, a2, '_');
    SplitNoSeparator(a1, '_');
    SplitNoSeparator(a2, '_');
    var s1 := Split(x1, '_');
    var s2 := Split(x2, '_');
    assert s1 + [a1] == s2 + [a2];
    assert |s1| == |s2|;
    assert s1 == (s1 + [a1])[..|s1|];
    assert s2 == (s2 + [a2])[..|s2|];
    JoinSplit(x1, '_');
    JoinSplit(x2, '_');
  }

  /** An encoded key (numeric amount) determines the moment it was written,
      the sanitised note and the amount text. */
  lemma {:induction false} EncodeKeyInjective(t1: DateTime, n1: string, a1: string,
                                              t2: DateTime, n2: string, a2: string)
    requires Valid(t1) && Valid(t2) && IsDigits(a1) && IsDigits(a2)
    requires EncodeKey(t1, n1, a1) == EncodeKey(t2, n2, a2)
    ensures t1 == t2 && Sanitize(n1) == Sanitize(n2) && a1 == a2
  {
    KeysAgree(t1, n1, a1, t2, n2, a2);
    StampsDetermineMoment(t1, t2);
    SplitOffAmount(Sanitize(n1), a1, Sanitize(n2), a2);
  }

  /** Equal keys have equal date halves, time halves and note-and-amount. */
  lemma KeysAgree(t1: DateTime, n1: string, a1: string, t2: DateTime, n2: string, a2: string)
    requires Valid(t1) && Valid(t2)
    requires EncodeKey(t1, n1, a1) == EncodeKey(t2, n2, a2)
    ensures DateStamp(t1) == DateStamp(t2) && TimeStamp(t1) == TimeStamp(t2)
    ensures Sanitize(n1) + "_" + a1 == Sanitize(n2) + "_" + a2
  {
    KeySlices(t1, n1, a1);
    KeySlices(t2, n2, a2);
  }

  /** The two halves of a timestamp determine the moment. */
  lemma StampsDetermineMoment(t1: DateTime, t2: DateTime)
    requires Valid(t1) && Valid(t2)
    requires DateStamp(t1) == DateStamp(t2) && TimeStamp(t1) == TimeStamp(t2)
    ensures t1 == t2
  {
    Unstamp(t1.year, t1.month, t1.day, t2.year, t2.month, t2.day);
    Unstamp(t1.hour, t1.minute, t1.second, t2.hour, t2.minute, t2.second);
  }

  // ---------------------------------------------------------------------
  // Rewriting a key, as the edit flow does it
  // ---------------------------------------------------------------------

  /** The name `get_new_value_and_save` gives an edited record: the first
      piece of the old name, then the new sanitised note (field `ket`) or
      the old middle pieces re-joined with `_`, then the new amount (field
      `bia`) or the old last piece, then `.jpg`. */
  function RewriteKey(original: string, field: string, newValue: string): string
  {
    var parts := KeyParts(original);
    var note := if field == "ket" then Sanitize(newValue) else Join(Middle(parts), '_');
    var amount := if field == "bia" then newValue else Last(parts);
    parts[0] + "_" + note + "_" + amount + Extension
  }

  lemma RewriteAmount(original: string, newAmount: string)
    ensures RewriteKey(original, "bia", newAmount)
            == KeyParts(original)[0] + "_" + Join(Middle(KeyParts(original)), '_') + "_" + newAmount + Extension
  {
  }

  lemma RewriteNote(original: string, newNote: string)
    ensures RewriteKey(original, "ket", newNote)
            == KeyParts(original)[0] + "_" + Sanitize(newNote) + "_" + Last(KeyParts(original)) + Extension
  {
  }

  /** The stripped name is the join of its pieces, and none of the pieces
      holds a `.jpg` when the stripped name holds none. */
  lemma PiecesOfClean(original: string)
    requires !Occurs(RemoveAll(original, Extension), Extension)
    requires |KeyParts(original)| >= 3
    ensures !Occurs(KeyParts(original)[0], Extension)
    ensures !Occurs(Join(Middle(KeyParts(original)), '_'), Extension)
  {
    var s := RemoveAll(original, Extension);
    JoinSplit(s, '_');
    NoOccursInJoinThree(KeyParts(original), '_', Extension);
  }

  /** The pieces of an amount-edited clean key: the old first piece, the
      pieces of the re-joined middle, and the new amount. */
  lemma AmountEditPieces(original: string, newAmount: string)
    requires IsDigits(newAmount)
    requires |KeyParts(original)| >= 3
    requires !Occurs(RemoveAll(original, Extension), Extension)
    ensures KeyParts(RewriteKey(original, "bia", newAmount))
            == [KeyParts(original)[0]] + Split(Join(Middle(KeyParts(original)), '_'), '_') + [newAmount]
  {
    var parts := KeyParts(original);
    var j := Join(Middle(parts), '_');
    RewriteAmount(original, newAmount);
    PiecesOfClean(original);
    KeyPartsOfShape(parts[0], j, newAmount);
    RemoveAllUnchanged(j, Extension);
    SplitNoSeparator(parts[0], '_');
  }

  /** An amount edit of a key with at least three pieces and no `.jpg` left
      after stripping changes only the last piece. */
  lemma AmountEditChangesOnlyAmount(original: string, newAmount: string)
    requires IsDigits(newAmount)
    requires |KeyParts(original)| >= 3
    requires !Occurs(RemoveAll(original, Extension), Extension)
    ensures KeyParts(RewriteKey(original, "bia", newAmount))
            == KeyParts(original)[..|KeyParts(original)| - 1] + [newAmount]
  {
    var parts := KeyParts(original);
    var m := Middle(parts);
    AmountEditPieces(original, newAmount);
    assert forall i :: 0 <= i < |m| ==> m[i] == parts[i + 1];
    SplitJoin(m, '_');
    assert parts[..|parts| - 1] == [parts[0]] + m;
  }

  /** A note edit of any decodable key keeps the first piece and the amount
      and replaces every middle piece, whatever it held. */
  lemma NoteEditReplacesMiddle(original: string, newNote: string)
    requires Decodes(original)
    requires !Occurs(KeyParts(original)[0], Extension)
    ensures KeyParts(RewriteKey(original, "ket", newNote))
            == [KeyParts(original)[0]]
               + Split(RemoveAll(Sanitize(newNote), Extension), '_')
               + [Last(KeyParts(original))]
  {
    var parts := KeyParts(original);
    RewriteNote(original, newNote);
    KeyPartsOfShape(parts[0], Sanitize(newNote), Last(parts));
    SplitNoSeparator(parts[0], '_');
  }

  /** On a key the add flow wrote, a note edit keeps the date and the
      amount but drops the time of day: the new key no longer has the
      `HHMMSS` piece. */
  lemma NoteEditDropsTime(now: DateTime, note: string, amount: string, newNote: string)
    requires Valid(now) && IsDigits(amount)
    ensures RewriteKey(EncodeKey(now, note, amount), "ket", newNote)
            == DateStamp(now) + "_" + Sanitize(newNote) + "_" + amount + Extension
    ensures KeyParts(RewriteKey(EncodeKey(now, note, amount), "ket", newNote))
            == [DateStamp(now)] + Split(RemoveAll(Sanitize(newNote), Extension), '_') + [amount]
  {
    var d := DateStamp(now);
    KeyPartsOfEncoded(now, note, amount);
    EndsOfPieces(d, TimeStamp(now), Split(RemoveAll(Sanitize(note), Extension), '_'), amount);
    RewriteNote(EncodeKey(now, note, amount), newNote);
    DigitsHaveNo(d, '.');
    DigitsHaveNo(d, '_');
    NoDotNoExtension(d);
    KeyPartsOfShape(d, Sanitize(newNote), amount);
    SplitNoSeparator(d, '_');
  }

  /** The middle pieces of an encoded key re-join to the time of day and
      the stripped note. */
  lemma MiddleOfEncoded(now: DateTime, note: string, amount: string)
    requires Valid(now) && IsDigits(amount)
    ensures KeyParts(EncodeKey(now, note, amount))[0] == DateStamp(now)
    ensures Join(Middle(KeyParts(EncodeKey(now, note, amount))), '_')
            == TimeStamp(now) + "_" + RemoveAll(Sanitize(note), Extension)
  {
    var rn := RemoveAll(Sanitize(note), Extension);
    KeyPartsOfEncoded(now, note, amount);
    EndsOfPieces(DateStamp(now), TimeStamp(now), Split(rn, '_'), amount);
    JoinConcat([TimeStamp(now)], Split(rn, '_'), '_');
    JoinSplit(rn, '_');
  }

  /** On a key the add flow wrote, an amount edit keeps the timestamp and
      the note, except that any `.jpg` inside the sanitised note is lost. */
  lemma AmountEditOfEncoded(now: DateTime, note: string, amount: string, newAmount: string)
    requires Valid(now) && IsDigits(amount)
    ensures RewriteKey(EncodeKey(now, note, amount), "bia", newAmount)
            == EncodeKey(now, RemoveAll(Sanitize(note), Extension), newAmount)
  {
    var rn := RemoveAll(Sanitize(note), Extension);
    var d, t := DateStamp(now), TimeStamp(now);
    var e := EncodeKey(now, note, amount);
    var parts := KeyParts(e);
    MiddleOfEncoded(now, note, amount);
    RewriteAmount(e, newAmount);
    var j := Join(Middle(parts), '_');
    assert RewriteKey(e, "bia", newAmount) == d + "_" + j + "_" + newAmount + Extension;
    RemoveAllKeepsKeyText(Sanitize(note));
    SanitizeFixedPoints(rn);
    assert EncodeKey(now, rn, newAmount) == Timestamp(now) + "_" + rn + "_" + newAmount + Extension;
    JoinAssoc(d, t, rn, '_');
    assert d + "_" + j == Timestamp(now) + "_" + rn;
  }

  /** Re-entering the same amount leaves an encoded key unchanged exactly
      when its sanitised note holds no `.jpg`; otherwise the edit flow
      rewrites the record although nothing was changed. */
  lemma SameAmountIsNoChange(now: DateTime, note: string, amount: string)
    requires Valid(now) && IsDigits(amount)
    ensures RewriteKey(EncodeKey(now, note, amount), "bia", amount) == EncodeKey(now, note, amount)
            <==> RemoveAll(Sanitize(note), Extension) == Sanitize(note)
  {
    var rn := RemoveAll(Sanitize(note), Extension);
    AmountEditOfEncoded(now, note, amount, amount);
    RemoveAllKeepsKeyText(Sanitize(note));
    SanitizeFixedPoints(rn);
    if EncodeKey(now, rn, amount) == EncodeKey(now, note, amount) {
      EncodeKeyInjective(now, rn, amount, now, note, amount);
    }
  }
}

=== FILE: listing.dfy ===
/** What the listing handlers do with a folder listing before they show it:
    order it by creation time, read each key back, skip the keys that do not
    read, and add up the amounts of the ones that do. */
module Listing {
  import opened Strings
  import opened KeyCodec
  import opened ObjectStore

  // ---------------------------------------------------------------------
  // sorted(files, key=lambda x: x['DateCreated'])
  // ---------------------------------------------------------------------

  /** Ordered by creation time, where the times are compared as strings
      (the store's ISO-8601 `DateCreated`). */
  predicate SortedByDate(xs: seq<Entry>)
  {
    forall i, j :: 0 <= i < j < |xs| ==> !LexLess(xs[j].created, xs[i].created)
  }

  /** The entries created at time `d`, in their original order. */
  function WithDate(xs: seq<Entry>, d: string): (r: seq<Entry>)
    ensures |r| <= |xs|
  {
    if |xs| == 0 then []
    else (if xs[0].created == d then [xs[0]] else []) + WithDate(xs[1..], d)
  }

  /** Puts `e` in front of the first entry that is not strictly older. */
  function Insert(e: Entry, sorted: seq<Entry>): (r: seq<Entry>)
    ensures multiset(r) == multiset(sorted) + multiset{e}
  {
    if |sorted| == 0 || !LexLess(sorted[0].created, e.created) then [e] + sorted
    else
      assert sorted == [sorted[0]] + sorted[1..];
      [sorted[0]] + Insert(e, sorted[1..])
  }

  /** Python's `sorted` by `DateCreated`: a stable sort. The result is a
      permutation of the listing (see `SortByDateSorted` and
      `SortByDateStable` for the order). */
  function SortByDate(entries: seq<Entry>): (r: seq<Entry>)
    ensures multiset(r) == multiset(entries)
    ensures |r| == |entries|
  {
    if |entries| == 0 then []
    else
      assert entries == [entries[0]] + entries[1..];
      Insert(entries[0], SortByDate(entries[1..]))
  }

  /** Not strictly before is at-or-after, and at-or-after is transitive. */
  lemma NotBeforeTransitive(a: string, b: string, c: string)
    requires !LexLess(a, b) && !LexLess(b, c)
    ensures !LexLess(a, c)
  {
    LexLessTotal(a, b);
    LexLessTotal(b, c);
    if LexLess(a, c) {
      if a != b && b != c {
        LexLessTransitive(c, b, a);
        LexLessAsymmetric(c, a);
      }
    }
  }

  lemma {:induction false} InsertSorted(e: Entry, s: seq<Entry>)
    requires SortedByDate(s)
    ensures SortedByDate(Insert(e, s))
  {
    if |s| == 0 || !LexLess(s[0].created, e.created) {
      var r := [e] + s;
      forall i, j | 0 <= i < j < |r|
        ensures !LexLess(r[j].created, r[i].created)
      {
        if i == 0 {
          if j > 1 {
            NotBeforeTransitive(s[j - 1].created, s[0].created, e.created);
          }
        }
      }
    } else {
      InsertSorted(e, s[1..]);
      var tail := Insert(e, s[1..]);
      var r := [s[0]] + tail;
      forall k | 0 <= k < |tail|
        ensures !LexLess(tail[k].created, s[0].created)
      {
        assert tail[k] in multiset(s[1..]) + multiset{e};
        if tail[k] in multiset(s[1..]) {
          var m :| 0 <= m < |s[1..]| && s[1..][m] == tail[k];
          assert s[m + 1] == tail[k];
        } else {
          assert tail[k] == e;
          LexLessAsymmetric(s[0].created, e.created);
        }
      }
      forall i, j | 0 <= i < j < |r|
        ensures !LexLess(r[j].created, r[i].created)
      {
        if i > 0 {
          assert r[i] == tail[i - 1] && r[j] == tail[j - 1];
        } else {
          assert r[j] == tail[j - 1];
        }
      }
    }
  }

  /** The sorted listing is ordered by creation time. */
  lemma {:induction false} SortByDateSorted(entries: seq<Entry>)
    ensures SortedByDate(SortByDate(entries))
  {
    if |entries| > 0 {
      SortByDateSorted(entries[1..]);
      InsertSorted(entries[0], SortByDate(entries[1..]));
    }
  }

  lemma {:induction false} WithDateConcat(xs: seq<Entry>, ys: seq<Entry>, d: string)
    ensures WithDate(xs + ys, d) == WithDate(xs, d) + WithDate(ys, d)
  {
    if |xs| > 0 {
      assert (xs + ys)[1..] == xs[1..] + ys;
      WithDateConcat(xs[1..], ys, d);
    } else {
      assert xs + ys == ys;
    }
  }

  /** Inserting `e` puts it before every entry created at the same time. */
  lemma {:induction false} InsertStable(e: Entry, s: seq<Entry>, d: string)
    ensures WithDate(Insert(e, s), d) == WithDate([e] + s, d)
  {
    if |s| > 0 && LexLess(s[0].created, e.created) {
      InsertStable(e, s[1..], d);
      WithDateConcat([s[0]], Insert(e, s[1..]), d);
      WithDateConcat([e], s[1..], d);
      WithDateConcat([s[0]], s[1..], d);
      WithDateConcat([e], s, d);
      assert s == [s[0]] + s[1..];
      LexLessIrreflexive(e.created);
      if e.created == d {
        assert s[0].created != d;
      }
    }
  }

  /** The sort is stable: the entries created at the same time keep their
      listing order. */
  lemma {:induction false} SortByDateStable(entries: seq<Entry>, d: string)
    ensures WithDate(SortByDate(entries), d) == WithDate(entries, d)
  {
    if |entries| > 0 {
      var rest := SortByDate(entries[1..]);
      SortByDateStable(entries[1..], d);
      InsertStable(entries[0], rest, d);
      WithDateConcat([entries[0]], rest, d);
      WithDateConcat([entries[0]], entries[1..], d);
      assert entries == [entries[0]] + entries[1..];
    }
  }

  // ---------------------------------------------------------------------
  // Reading the keys of a listing back
  // ---------------------------------------------------------------------

  /** The amount a decodable key carries. */
  function AmountOf(name: string): nat
    requires Decodes(name)
  {
    DecodeKey(name).value.amount
  }

  /** How many keys of the listing decode. */
  function DecodableCount(entries: seq<Entry>): (n: nat)
    ensures n <= |entries|
  {
    if |entries| == 0 then 0
    else (if Decodes(entries[0].name) then 1 else 0) + DecodableCount(entries[1..])
  }

  /** The sum of the amounts of the keys that decode; the others add
      nothing. */
  function DecodableTotal(entries: seq<Entry>): nat
  {
    if |entries| == 0 then 0
    else (if Decodes(entries[0].name) then AmountOf(entries[0].name) else 0) + DecodableTotal(entries[1..])
  }

  /** Every key decodes. */
  predicate AllDecode(entries: seq<Entry>)
  {
    forall i :: 0 <= i < |entries| ==> Decodes(entries[i].name)
  }

  /** The list the delete flow keeps: the names of the (sorted) entries
      whose key decodes, in order, one per decodable entry. */
  function Deletable(entries: seq<Entry>): (names: seq<string>)
    ensures |names| == DecodableCount(entries)
  {
    if |entries| == 0 then []
    else
      var rest := Deletable(entries[1..]);
      assert forall i :: 1 <= i < |entries| ==> entries[i] == entries[1..][i - 1];
      Shown(entries[0]) + rest
  }

  /** What one entry contributes to the delete list: its name when its key
      decodes, nothing otherwise. */
  function Shown(e: Entry): (names: seq<string>)
    ensures |names| == if Decodes(e.name) then 1 else 0
  {
    if Decodes(e.name) then [e.name] else []
  }

  /** The delete list holds exactly the decodable names of the listing. */
  lemma {:induction false} DeletableMembers(entries: seq<Entry>)
    ensures forall n :: n in Deletable(entries) ==> Decodes(n)
    ensures forall i :: 0 <= i < |entries| && Decodes(entries[i].name) ==> entries[i].name in Deletable(entries)
  {
    if |entries| > 0 {
      DeletableMembers(entries[1..]);
      assert forall i :: 1 <= i < |entries| ==> entries[i] == entries[1..][i - 1];
    }
  }

  /** Where the `j`-th deletable name sits in the listing; never before
      position `j` (see `SourceExact` for when it is at `j`). */
  function Source(entries: seq<Entry>, j: nat): (k: nat)
    requires j < |Deletable(entries)|
    ensures j <= k < |entries|
    ensures Deletable(entries)[j] == entries[k].name
  {
    var rest := entries[1..];
    assert Deletable(entries) == Shown(entries[0]) + Deletable(rest);
    if Decodes(entries[0].name) then
      if j == 0 then 0
      else
        var k := Source(rest, j - 1);
        assert rest[k] == entries[k + 1];
        assert Deletable(entries)[j] == Deletable(rest)[j - 1];
        k + 1
    else
      var k := Source(rest, j);
      assert rest[k] == entries[k + 1];
      assert Deletable(entries)[j] == Deletable(rest)[j];
      k + 1
  }

  /** The `j`-th deletable name is the entry at position `j` exactly when
      all of the first `j + 1` keys decode. */
  lemma {:induction false} SourceExact(entries: seq<Entry>, j: nat)
    requires j < |Deletable(entries)|
    ensures Source(entries, j) == j <==> forall i :: 0 <= i <= j ==> Decodes(entries[i].name)
  {
    var rest := entries[1..];
    if Decodes(entries[0].name) {
      if j > 0 {
        assert |Deletable(entries)| == 1 + |Deletable(rest)|;
        SourceExact(rest, j - 1);
        assert forall i :: 0 <= i <= j - 1 ==> rest[i] == entries[i + 1];
      }
    }
  }

  /** When every key decodes, the number shown next to an entry (its
      position in the sorted listing, counting from one) selects that very
      entry for deletion. */
  lemma {:induction false} AllDecodeNumbering(entries: seq<Entry>)
    requires AllDecode(entries)
    ensures Deletable(entries) == Names(entries)
  {
    if |entries| > 0 {
      assert AllDecode(entries[1..]) by {
        forall i | 0 <= i < |entries[1..]|
          ensures Decodes(entries[1..][i].name)
        {
          assert entries[1..][i] == entries[i + 1];
        }
      }
      AllDecodeNumbering(entries[1..]);
      assert Names(entries) == [entries[0].name] + Names(entries[1..]);
    }
  }

  // ---------------------------------------------------------------------
  // The numbers the delete menu shows
  // ---------------------------------------------------------------------

  /** The number the delete menu prints next to the entry at position `j`
      of the sorted listing: its position counting from one. Entries whose
      key does not read back are skipped, but the count goes on. */
  function ShownNumberAsWritten(entries: seq<Entry>, j: nat): (n: nat)
    requires j < |entries|
    ensures 1 <= n <= |entries|
  {
    j + 1
  }

  /** Once a key that does not read back precedes a shown entry, typing
      the number printed next to that entry does not select it: the number
      is either out of range or names a later entry (names in a folder are
      distinct). */
  lemma NumberingShifts(entries: seq<Entry>, bad: nat, j: nat)
    requires Distinct(Names(entries))
    requires bad < j < |entries| && !Decodes(entries[bad].name)
    ensures ShownNumberAsWritten(entries, j) <= |Deletable(entries)| ==>
              Deletable(entries)[ShownNumberAsWritten(entries, j) - 1] != entries[j].name
  {
    ShiftedName(entries, bad, j);
  }

  lemma ShiftedName(entries: seq<Entry>, bad: nat, j: nat)
    requires Distinct(Names(entries))
    requires bad < j < |entries| && !Decodes(entries[bad].name)
    ensures j < |Deletable(entries)| ==> Deletable(entries)[j] != entries[j].name
  {
    if j < |Deletable(entries)| {
      ShiftedSource(entries, bad, j);
      DistinctNames(entries, Source(entries, j), j);
    }
  }

  lemma ShiftedSource(entries: seq<Entry>, bad: nat, j: nat)
    requires bad < j < |Deletable(entries)| && !Decodes(entries[bad].name)
    ensures Source(entries, j) != j
  {
    SourceExact(entries, j);
  }

  lemma DistinctNames(entries: seq<Entry>, i: nat, k: nat)
    requires Distinct(Names(entries)) && i < |entries| && k < |entries| && i != k
    ensures entries[i].name != entries[k].name
  {
    var names := Names(entries);
    assert names[i] == entries[i].name && names[k] == entries[k].name;
  }

  /** The number the delete menu should print next to a shown entry: one
      more than the number of shown entries before it. */
  function ShownNumber(entries: seq<Entry>, j: nat): (n: nat)
    requires j < |entries|
    ensures 1 <= n <= j + 1
  {
    DecodableCount(entries[..j]) + 1
  }

  /** With that numbering, typing the number shown next to an entry
      selects exactly that entry. */
  lemma {:induction false} ShownNumberSelects(entries: seq<Entry>, j: nat)
    requires j < |entries| && Decodes(entries[j].name)
    ensures ShownNumber(entries, j) <= |Deletable(entries)|
    ensures Deletable(entries)[ShownNumber(entries, j) - 1] == entries[j].name
  {
    var rest := entries[1..];
    DeletableUnfold(entries);
    if j == 0 {
      assert entries[..0] == [];
    } else {
      ShownNumberSelects(rest, j - 1);
      ShownNumberUnfold(entries, j);
      assert rest[j - 1] == entries[j];
      SelectAfterPrefix(Deletable(entries), Shown(entries[0]), Deletable(rest),
                        ShownNumber(entries, j), ShownNumber(rest, j - 1), entries[j].name);
    }
  }

  /** Position `p` (from one) in `rest` is position `|head| + p` in
      `head + rest`. */
  lemma SelectAfterPrefix(all: seq<string>, head: seq<string>, rest: seq<string>, n: nat, p: nat, name: string)
    requires all == head + rest && 1 <= p <= |rest| && rest[p - 1] == name && n == |head| + p
    ensures 1 <= n <= |all| && all[n - 1] == name
  {
  }

  lemma DeletableUnfold(entries: seq<Entry>)
    requires |entries| > 0
    ensures Deletable(entries)
            == Shown(entries[0]) + Deletable(entries[1..])
  {
  }

  lemma ShownNumberUnfold(entries: seq<Entry>, j: nat)
    requires 0 < j < |entries|
    ensures ShownNumber(entries, j)
            == |Shown(entries[0])| + ShownNumber(entries[1..], j - 1)
  {
    assert entries[..j][1..] == entries[1..][..j - 1];
  }

  lemma {:induction false} InsertKeepsTotals(e: Entry, s: seq<Entry>)
    ensures DecodableCount(Insert(e, s)) == DecodableCount([e] + s)
    ensures DecodableTotal(Insert(e, s)) == DecodableTotal([e] + s)
  {
    if |s| > 0 && LexLess(s[0].created, e.created) {
      InsertKeepsTotals(e, s[1..]);
      var r := Insert(e, s);
      assert r[1..] == Insert(e, s[1..]);
      assert ([e] + s)[1..] == s;
      assert ([e] + s[1..])[1..] == s[1..];
      assert s[0] == r[0];
    }
  }

  /** Sorting changes neither how many keys decode nor what they add up to. */
  lemma {:induction false} SortKeepsTotals(entries: seq<Entry>)
    ensures DecodableCount(SortByDate(entries)) == DecodableCount(entries)
    ensures DecodableTotal(SortByDate(entries)) == DecodableTotal(entries)
  {
    if |entries| > 0 {
      SortKeepsTotals(entries[1..]);
      InsertKeepsTotals(entries[0], SortByDate(entries[1..]));
      assert ([entries[0]] + SortByDate(entries[1..]))[1..] == SortByDate(entries[1..]);
    }
  }
}

=== FILE: period.dfy ===
/** Calendar time as the bot reads it from the clock, the fiscal period a
    date belongs to (a month that closes on the 24th), and the two text
    forms derived from them: the `YYYY-MM` period used as a storage folder
    and the `%Y%m%d_%H%M%S` timestamp that opens every key. */
module Period {
  import opened Strings
  import opened Decimal

  /** A local date and time of day, second precision (Python's `datetime`). */
  datatype DateTime = DateTime(year: int, month: int, day: int, hour: int, minute: int, second: int)

  predicate IsLeapYear(y: int)
  {
    y % 4 == 0 && (y % 100 != 0 || y % 400 == 0)
  }

  function DaysInMonth(y: int, m: int): int
  {
    if m == 2 then (if IsLeapYear(y) then 29 else 28)
    else if m == 4 || m == 6 || m == 9 || m == 11 then 30
    else 31
  }

  /** The values Python's `datetime` can hold. */
  predicate Valid(t: DateTime)
  {
    && 1 <= t.year <= 9999
    && 1 <= t.month <= 12
    && 1 <= t.day <= DaysInMonth(t.year, t.month)
    && 0 <= t.hour < 24
    && 0 <= t.minute < 60
    && 0 <= t.second < 60
  }

  /** A fiscal period, named by the calendar month in which it starts
      (see `CurrentPeriod`). */
  datatype FiscalPeriod = FiscalPeriod(year: int, month: int)

  /** Months counted from year 0, so that consecutive months differ by one. */
  function MonthIndex(year: int, month: int): int
  {
    year * 12 + (month - 1)
  }

  /** The period a moment belongs to: from the 25th on, the current calendar
      month; before the 25th, the previous one (December of the previous
      year in January). The result is a proper month, and it is the calendar
      month itself or the one just before it. */
  function CurrentPeriod(now: DateTime): (p: FiscalPeriod)
    requires Valid(now)
    ensures 1 <= p.month <= 12
    ensures 0 <= p.year <= 9999
    ensures MonthIndex(p.year, p.month)
            == MonthIndex(now.year, now.month) - (if now.day < 25 then 1 else 0)
  {
    var month := if now.day < 25 then now.month - 1 else now.month;
    var year := if now.month > 1 || now.day >= 25 then now.year else now.year - 1;
    FiscalPeriod(year, if month == 0 then 12 else month)
  }

  /** The three cases of the cut-off rule, spelled out. */
  lemma PeriodCases(now: DateTime)
    requires Valid(now)
    ensures now.day >= 25 ==> CurrentPeriod(now) == FiscalPeriod(now.year, now.month)
    ensures now.day < 25 && now.month > 1 ==> CurrentPeriod(now) == FiscalPeriod(now.year, now.month - 1)
    ensures now.day < 25 && now.month == 1 ==> CurrentPeriod(now) == FiscalPeriod(now.year - 1, 12)
  {
  }

  /** `f"{year}-{month:02d}"`: the folder under a category that holds one period. */
  function PeriodId(p: FiscalPeriod): (id: string)
    requires 0 <= p.year && 1 <= p.month <= 12
    ensures Split(id, '-') == [Render(p.year), Pad(p.month, 2)]
  {
    var y := Render(p.year);
    var m := Pad(p.month, 2);
    DigitsHaveNo(y, '-');
    DigitsHaveNo(m, '-');
    SplitAppend(y, m, '-');
    SplitNoSeparator(y, '-');
    SplitNoSeparator(m, '-');
    y + "-" + m
  }

  /** Two periods share a folder only if they are the same period. */
  lemma {:induction false} PeriodIdInjective(p: FiscalPeriod, q: FiscalPeriod)
    requires 0 <= p.year && 1 <= p.month <= 12
    requires 0 <= q.year && 1 <= q.month <= 12
    requires PeriodId(p) == PeriodId(q)
    ensures p == q
  {
    var sp := Split(PeriodId(p), '-');
    var sq := Split(PeriodId(q), '-');
    assert sp == sq;
    assert Render(p.year) == sp[0] == sq[0] == Render(q.year);
    assert Value(Render(p.year)) == p.year;
    assert Pad(p.month, 2) == sp[1] == sq[1] == Pad(q.month, 2);
    assert Value(Pad(p.month, 2)) == p.month;
  }

  /** `%Y%m%d`: the date half of a key's timestamp. Eight digits that read
      back, as a number, as year, month and day side by side. */
  function DateStamp(t: DateTime): (s: string)
    requires Valid(t)
    ensures |s| == 8 && IsDigits(s)
    ensures Value(s) == t.year * 10000 + t.month * 100 + t.day
  {
    Stamp3(t.year, 4, t.month, t.day)
  }

  /** `%H%M%S`: the time half of a key's timestamp. Six digits that read
      back as hour, minute and second side by side. */
  function TimeStamp(t: DateTime): (s: string)
    requires Valid(t)
    ensures |s| == 6 && IsDigits(s)
    ensures Value(s) == t.hour * 10000 + t.minute * 100 + t.second
  {
    Stamp3(t.hour, 2, t.minute, t.second)
  }

  /** Three zero-padded numbers side by side: `a` in `w` digits, then `b`
      and `c` in two digits each. */
  function Stamp3(a: nat, w: nat, b: nat, c: nat): (s: string)
    requires 1 <= w && a < Pow10(w) && b < 100 && c < 100
    ensures |s| == w + 4 && IsDigits(s)
    ensures Value(s) == a * 10000 + b * 100 + c
  {
    RenderFits(a, w);
    RenderFits(b, 2);
    RenderFits(c, 2);
    var sa := Pad(a, w);
    var sb := Pad(b, 2);
    var sc := Pad(c, 2);
    ValueOfThree(sa, sb, sc);
    sa + sb + sc
  }

  /** Reading three digit strings side by side, the last two of width two. */
  lemma ValueOfThree(sa: string, sb: string, sc: string)
    requires IsDigits(sa) && IsDigits(sb) && IsDigits(sc) && |sb| == 2 && |sc| == 2
    ensures IsDigits(sa + sb + sc)
    ensures Value(sa + sb + sc) == Value(sa) * 10000 + Value(sb) * 100 + Value(sc)
  {
    ValueAppend(sa, sb);
    ValueAppend(sa + sb, sc);
    assert Pow10(2) == 100;
  }

  /** `%Y%m%d_%H%M%S`. */
  function Timestamp(t: DateTime): string
    requires Valid(t)
  {
    DateStamp(t) + "_" + TimeStamp(t)
  }
}

=== FILE: registry.dfy ===
/** The category registry: the in-memory list of category names that the
    add flow, the reports and the delete and edit menus go through, the two
    commands that change it, and the form in which it is written to the
    configuration file (sorted, without duplicates). */
module Registry {
  import opened Strings

  /** The list written when no readable configuration file exists. */
  const DefaultCategories: seq<string> := ["grab", "mrt", "bensin", "parkir", "lembur"]

  predicate NoDuplicates(xs: seq<string>)
  {
    forall i, j :: 0 <= i < j < |xs| ==> xs[i] != xs[j]
  }

  /** `args[0].lower().strip()`. */
  function Normalize(arg: string): string
  {
    Strip(Lower(arg))
  }

  datatype AddReply = AddUsage | NotAlphabetic(name: string) | AlreadyPresent(name: string) | Added(name: string)

  /** `/tambah_kategori <name>`: no argument gives the usage text; a name
      that is not all letters or is already registered is refused;
      otherwise the name is appended. */
  function AddCategory(categories: seq<string>, args: seq<string>): (r: (seq<string>, AddReply))
    ensures |args| == 0 <==> r.1 == AddUsage
    ensures |args| > 0 ==>
              (r.1.Added? <==> IsAlpha(Normalize(args[0])) && Normalize(args[0]) !in categories)
    ensures r.1.Added? ==> r.1.name == Normalize(args[0]) && r.0 == categories + [r.1.name]
    ensures !r.1.Added? ==> r.0 == categories
  {
    if |args| == 0 then (categories, AddUsage)
    else
      var name := Normalize(args[0]);
      if !IsAlpha(name) then (categories, NotAlphabetic(name))
      else if name in categories then (categories, AlreadyPresent(name))
      else (categories + [name], Added(name))
  }

  /** `list.index(x)`: the position of the first occurrence of `x`. */
  function FirstIndex(xs: seq<string>, x: string): (k: nat)
    requires x in xs
    ensures k < |xs| && xs[k] == x
    ensures forall i :: 0 <= i < k ==> xs[i] != x
  {
    if xs[0] == x then 0 else 1 + FirstIndex(xs[1..], x)
  }

  /** `list.remove(x)`: drops the first occurrence and keeps the order of
      everything else. */
  function RemoveFirst(xs: seq<string>, x: string): (r: seq<string>)
    requires x in xs
    ensures r == xs[..FirstIndex(xs, x)] + xs[FirstIndex(xs, x) + 1..]
    ensures |r| == |xs| - 1
    ensures multiset(r) == multiset(xs) - multiset{x}
    ensures forall y :: y in r ==> y in xs
  {
    var k := FirstIndex(xs, x);
    RemoveAtMultiset(xs, k);
    if xs[0] == x then
      assert k == 0 && xs[..0] + xs[1..] == xs[1..];
      xs[1..]
    else
      var tail := RemoveFirst(xs[1..], x);
      RemoveFirstSkip(xs, x, tail);
      [xs[0]] + tail
  }

  /** Dropping a first occurrence after the head keeps the head. */
  lemma RemoveFirstSkip(xs: seq<string>, x: string, tail: seq<string>)
    requires x in xs && xs[0] != x
    requires tail == xs[1..][..FirstIndex(xs[1..], x)] + xs[1..][FirstIndex(xs[1..], x) + 1..]
    ensures [xs[0]] + tail == xs[..FirstIndex(xs, x)] + xs[FirstIndex(xs, x) + 1..]
  {
    var k := FirstIndex(xs[1..], x);
    assert FirstIndex(xs, x) == k + 1;
    assert xs[..k + 1] == [xs[0]] + xs[1..][..k];
    assert xs[k + 2..] == xs[1..][k + 1..];
  }

  /** Dropping position `k` removes one copy of `xs[k]`. */
  lemma RemoveAtMultiset(xs: seq<string>, k: nat)
    requires k < |xs|
    ensures multiset(xs[..k] + xs[k + 1..]) == multiset(xs) - multiset{xs[k]}
    ensures forall y :: y in xs[..k] + xs[k + 1..] ==> y in xs
  {
    assert xs == xs[..k] + [xs[k]] + xs[k + 1..];
    forall y | y in xs[..k] + xs[k + 1..]
      ensures y in xs
    {
      assert y in multiset(xs[..k] + xs[k + 1..]);
    }
  }

  datatype RemoveReply = RemoveUsage | NotFound(name: string) | Removed(name: string)

  /** `/hapus_kategori <name>`: no argument gives the usage text; an
      unknown name is refused; otherwise one occurrence is removed. */
  function RemoveCategory(categories: seq<string>, args: seq<string>): (r: (seq<string>, RemoveReply))
    ensures |args| == 0 <==> r.1 == RemoveUsage
    ensures |args| > 0 ==> (r.1.Removed? <==> Normalize(args[0]) in categories)
    ensures r.1.Removed? ==>
              && r.1.name == Normalize(args[0])
              && r.1.name in categories
              && r.0 == categories[..FirstIndex(categories, r.1.name)] + categories[FirstIndex(categories, r.1.name) + 1..]
              && multiset(r.0) == multiset(categories) - multiset{r.1.name}
    ensures !r.1.Removed? ==> r.0 == categories
  {
    if |args| == 0 then (categories, RemoveUsage)
    else
      var name := Normalize(args[0]);
      if name !in categories then (categories, NotFound(name))
      else (RemoveFirst(categories, name), Removed(name))
  }

  /** Every registered name read from the chat is lower case: lower-casing
      it again changes nothing. */
  lemma AddedNameIsLowerCase(categories: seq<string>, args: seq<string>)
    requires AddCategory(categories, args).1.Added?
    ensures IsAlpha(AddCategory(categories, args).1.name)
    ensures Lower(AddCategory(categories, args).1.name) == AddCategory(categories, args).1.name
  {
    var name := AddCategory(categories, args).1.name;
    assert name == Normalize(args[0]);
    NormalizedIsLowerCase(args[0], name);
  }

  /** A normalised name is its own lower case. */
  lemma NormalizedIsLowerCase(arg: string, name: string)
    requires name == Normalize(arg)
    ensures Lower(name) == name
  {
    var lowered := Lower(arg);
    LowerHasNoUpper(arg);
    var c, d := StripBounds(lowered);
    NoUpperInSlice(lowered, name, c, d);
    LowerKeeps(name);
  }

  lemma NoUpperInSlice(s: string, t: string, c: int, d: int)
    requires 0 <= c <= d <= |s| && t == s[c..d]
    requires forall k :: 0 <= k < |s| ==> !('A' <= s[k] <= 'Z')
    ensures forall k :: 0 <= k < |t| ==> !('A' <= t[k] <= 'Z')
  {
    forall k | 0 <= k < |t|
      ensures !('A' <= t[k] <= 'Z')
    {
      assert t[k] == s[c + k];
    }
  }

  /** Neither command introduces a duplicate. */
  lemma CommandsKeepNoDuplicates(categories: seq<string>, args: seq<string>)
    requires NoDuplicates(categories)
    ensures NoDuplicates(AddCategory(categories, args).0)
    ensures NoDuplicates(RemoveCategory(categories, args).0)
  {
    AddKeepsNoDuplicates(categories, args);
    var (_, reply) := RemoveCategory(categories, args);
    if reply.Removed? {
      RemoveFirstNoDuplicates(categories, reply.name);
    }
  }

  lemma AddKeepsNoDuplicates(categories: seq<string>, args: seq<string>)
    requires NoDuplicates(categories)
    ensures NoDuplicates(AddCategory(categories, args).0)
  {
    var (r, reply) := AddCategory(categories, args);
    if reply.Added? {
      forall i, j | 0 <= i < j < |r|
        ensures r[i] != r[j]
      {
        assert r[i] == categories[i];
        if j == |categories| {
          assert r[i] in categories;
        } else {
          assert r[j] == categories[j];
        }
      }
    }
  }

  lemma RemoveFirstNoDuplicates(xs: seq<string>, x: string)
    requires x in xs && NoDuplicates(xs)
    ensures NoDuplicates(RemoveFirst(xs, x))
  {
    var k := FirstIndex(xs, x);
    var r := RemoveFirst(xs, x);
    forall i, j | 0 <= i < j < |r|
      ensures r[i] != r[j]
    {
      var i' := if i < k then i else i + 1;
      var j' := if j < k then j else j + 1;
      assert r[i] == xs[i'] && r[j] == xs[j'];
    }
  }

  // ---------------------------------------------------------------------
  // The saved form: sorted(list(set(categories)))
  // ---------------------------------------------------------------------

  predicate StrictlySorted(xs: seq<string>)
  {
    forall i, j :: 0 <= i < j < |xs| ==> LexLess(xs[i], xs[j])
  }

  /** Adds `x` to a strictly sorted list of distinct names, in place. */
  function InsertUnique(x: string, s: seq<string>): (r: seq<string>)
    requires StrictlySorted(s)
    ensures StrictlySorted(r)
    ensures forall y :: y in r <==> y == x || y in s
  {
    if |s| == 0 then [x]
    else if x == s[0] then s
    else if LexLess(x, s[0]) then
      assert forall j :: 0 < j < |s| ==> LexLess(s[0], s[j]);
      InsertBeforeHead(x, s);
      [x] + s
    else
      LexLessTotal(x, s[0]);
      var tail := InsertUnique(x, s[1..]);
      assert forall y :: y in s[1..] ==> LexLess(s[0], y);
      [s[0]] + tail
  }

  lemma InsertBeforeHead(x: string, s: seq<string>)
    requires StrictlySorted(s) && |s| > 0 && LexLess(x, s[0])
    ensures StrictlySorted([x] + s)
  {
    forall j | 0 < j < |s|
      ensures LexLess(x, s[j])
    {
      LexLessTransitive(x, s[0], s[j]);
    }
  }

  /** `sorted(list(set(categories)))`, the list `_save_commands` writes. */
  function Persisted(categories: seq<string>): (r: seq<string>)
    ensures StrictlySorted(r)
    ensures forall y :: y in r <==> y in categories
  {
    if |categories| == 0 then []
    else InsertUnique(categories[0], Persisted(categories[1..]))
  }

  /** A strictly sorted list is fixed by its set of elements, so the saved
      list is the one sorted, duplicate-free arrangement of the names. */
  lemma {:induction false} SortedBySet(a: seq<string>, b: seq<string>)
    requires StrictlySorted(a) && StrictlySorted(b)
    requires forall y :: y in a <==> y in b
    ensures a == b
  {
    assert |a| > 0 ==> a[0] in a;
    assert |b| > 0 ==> b[0] in b;
    if |a| != 0 {
      assert |b| > 0;
      if a[0] != b[0] {
        assert b[0] in b;
        var k :| 0 <= k < |b| && b[k] == a[0];
        var m :| 0 <= m < |a| && a[m] == b[0];
        assert LexLess(b[0], a[0]);
        assert LexLess(a[0], b[0]);
        LexLessAsymmetric(a[0], b[0]);
      }
      forall y
        ensures y in a[1..] <==> y in b[1..]
      {
        if y in a[1..] {
          var k :| 0 <= k < |a[1..]| && a[1..][k] == y;
          assert LexLess(a[0], a[k + 1]);
          LexLessIrreflexive(a[0]);
          assert y in b;
          var m :| 0 <= m < |b| && b[m] == y;
          assert m != 0;
          assert b[1..][m - 1] == y;
        }
        if y in b[1..] {
          var k :| 0 <= k < |b[1..]| && b[1..][k] == y;
          assert LexLess(b[0], b[k + 1]);
          LexLessIrreflexive(b[0]);
          assert y in a;
          var m :| 0 <= m < |a| && a[m] == y;
          assert m != 0;
          assert a[1..][m - 1] == y;
        }
      }
      SortedBySet(a[1..], b[1..]);
      assert a == [a[0]] + a[1..] && b == [b[0]] + b[1..];
    }
  }

  /** The saved list does not depend on the order of the in-memory list or
      on repeated names in it. */
  lemma PersistedDependsOnSetOnly(a: seq<string>, b: seq<string>)
    requires forall y :: y in a <==> y in b
    ensures Persisted(a) == Persisted(b)
  {
    SortedBySet(Persisted(a), Persisted(b));
  }

  /** Saving and reloading is a fixed point: the saved form of a saved list
      is itself. */
  lemma PersistedIdempotent(categories: seq<string>)
    ensures Persisted(Persisted(categories)) == Persisted(categories)
  {
    SortedBySet(Persisted(Persisted(categories)), Persisted(categories));
  }
}

=== FILE: reports.dfy ===
/** The two read-only reports over the current period: `/list`, which
    shows every record that reads back and counts and adds them up, and
    `/summary`, which shows one total per category. Both go through the
    categories in registry order and list the folder `category/period/` of
    each; the listings are the input here. */
module Reports {
  import opened Wrappers
  import opened Strings
  import opened KeyCodec
  import opened ObjectStore
  import opened Listing

  /** One category and the answer to listing its folder for the period:
      `None` when the store reported an error. */
  datatype Folder = Folder(category: string, listing: Option<seq<Entry>>)

  /** The entries a report looks at: `if files:` treats an error and an
      empty folder alike. */
  function FilesOf(folder: Folder): seq<Entry>
  {
    match folder.listing
    case None => []
    case Some(files) => files
  }

  // ---------------------------------------------------------------------
  // /list
  // ---------------------------------------------------------------------

  /** One shown record: the words of its note and its amount. */
  datatype Line = Line(words: seq<string>, amount: nat)

  /** A category's block: its lines in creation order and their total. */
  datatype Section = Section(category: string, lines: seq<Line>, total: nat)

  /** `total_data` and `total_biaya` with the blocks they were counted in. */
  datatype ListReport = ListReport(sections: seq<Section>, count: nat, total: nat)

  /** The line for each key that reads back, in order; the others are
      skipped one by one. */
  function Lines(entries: seq<Entry>): seq<Line>
  {
    if |entries| == 0 then [] else LineOf(entries[0]) + Lines(entries[1..])
  }

  /** The line of one key: none when it does not read back. */
  function LineOf(e: Entry): seq<Line>
  {
    match DecodeKey(e.name)
    case None => []
    case Some(rec) => [Line(rec.words, rec.amount)]
  }

  function SumLines(lines: seq<Line>): nat
  {
    if |lines| == 0 then 0 else lines[0].amount + SumLines(lines[1..])
  }

  /** The block a folder contributes: none when no key reads back. */
  function SectionOf(folder: Folder): seq<Section>
  {
    var lines := Lines(SortByDate(FilesOf(folder)));
    if |lines| == 0 then [] else [Section(folder.category, lines, DecodableTotal(FilesOf(folder)))]
  }

  function ListSections(folders: seq<Folder>): seq<Section>
  {
    if |folders| == 0 then []
    else ListSections(folders[..|folders| - 1]) + SectionOf(folders[|folders| - 1])
  }

  /** The number of keys that read back, over all categories. */
  function ListCount(folders: seq<Folder>): nat
  {
    if |folders| == 0 then 0
    else ListCount(folders[..|folders| - 1]) + DecodableCount(FilesOf(folders[|folders| - 1]))
  }

  /** The sum of the amounts of the keys that read back, over all categories. */
  function ListTotal(folders: seq<Folder>): nat
  {
    if |folders| == 0 then 0
    else ListTotal(folders[..|folders| - 1]) + DecodableTotal(FilesOf(folders[|folders| - 1]))
  }

  lemma {:induction false} CountsConcat(xs: seq<Entry>, ys: seq<Entry>)
    ensures DecodableCount(xs + ys) == DecodableCount(xs) + DecodableCount(ys)
    ensures DecodableTotal(xs + ys) == DecodableTotal(xs) + DecodableTotal(ys)
    ensures Lines(xs + ys) == Lines(xs) + Lines(ys)
  {
    TotalsConcat(xs, ys);
    LinesConcat(xs, ys);
  }

  lemma {:induction false} TotalsConcat(xs: seq<Entry>, ys: seq<Entry>)
    ensures DecodableCount(xs + ys) == DecodableCount(xs) + DecodableCount(ys)
    ensures DecodableTotal(xs + ys) == DecodableTotal(xs) + DecodableTotal(ys)
  {
    if |xs| == 0 {
      assert xs + ys == ys;
    } else {
      assert (xs + ys)[0] == xs[0];
      assert (xs + ys)[1..] == xs[1..] + ys;
      TotalsConcat(xs[1..], ys);
    }
  }

  lemma {:induction false} LinesConcat(xs: seq<Entry>, ys: seq<Entry>)
    ensures Lines(xs + ys) == Lines(xs) + Lines(ys)
  {
    if |xs| == 0 {
      assert xs + ys == ys;
    } else {
      assert (xs + ys)[0] == xs[0];
      assert (xs + ys)[1..] == xs[1..] + ys;
      LinesConcat(xs[1..], ys);
      Assoc3(LineOf(xs[0]), Lines(xs[1..]), Lines(ys));
    }
  }

  /** There is one line per key that reads back, and the lines add up to
      the amounts of those keys. */
  lemma {:induction false} LinesMatchCounts(entries: seq<Entry>)
    ensures |Lines(entries)| == DecodableCount(entries)
    ensures SumLines(Lines(entries)) == DecodableTotal(entries)
  {
    if |entries| > 0 {
      LinesMatchCounts(entries[1..]);
      SumLinesConcat(LineOf(entries[0]), Lines(entries[1..]));
    }
  }

  lemma {:induction false} SumLinesConcat(a: seq<Line>, b: seq<Line>)
    ensures SumLines(a + b) == SumLines(a) + SumLines(b)
  {
    if |a| == 0 {
      assert a + b == b;
    } else {
      assert (a + b)[1..] == a[1..] + b;
      SumLinesConcat(a[1..], b);
    }
  }

  /** The inner loop of the `/list` handler over one sorted folder: the
      lines of the keys that read back, how many there are and what they add
      up to. */
  method ReadFolder(sorted: seq<Entry>) returns (lines: seq<Line>, count: nat, total: nat)
    ensures lines == Lines(sorted)
    ensures count == DecodableCount(sorted)
    ensures total == DecodableTotal(sorted)
  {
    lines, count, total := [], 0, 0;
    for k := 0 to |sorted|
      invariant lines == Lines(sorted[..k])
      invariant count == DecodableCount(sorted[..k])
      invariant total == DecodableTotal(sorted[..k])
    {
      ReadStep(sorted, k);
      match DecodeKey(sorted[k].name)
      case None =>
      case Some(rec) =>
        lines := lines + [Line(rec.words, rec.amount)];
        count := count + 1;
        total := total + rec.amount;
    }
    assert sorted[..|sorted|] == sorted;
  }

  /** Reading one more key of a folder. */
  lemma ReadStep(sorted: seq<Entry>, k: nat)
    requires k < |sorted|
    ensures Lines(sorted[..k + 1]) == Lines(sorted[..k]) + LineOf(sorted[k])
    ensures DecodableCount(sorted[..k + 1]) == DecodableCount(sorted[..k]) + DecodableCount([sorted[k]])
    ensures DecodableTotal(sorted[..k + 1]) == DecodableTotal(sorted[..k]) + DecodableTotal([sorted[k]])
  {
    assert sorted[..k + 1] == sorted[..k] + [sorted[k]];
    CountsConcat(sorted[..k], [sorted[k]]);
    assert [sorted[k]][1..] == [];
  }

  /** The `/list` handler's loop: for each category with a non-empty
      listing, go through the keys in creation order, skip the ones that do
      not read back, and show a block when at least one did. */
  method ListData(folders: seq<Folder>) returns (report: ListReport)
    ensures report.sections == ListSections(folders)
    ensures report.count == ListCount(folders)
    ensures report.total == ListTotal(folders)
  {
    var sections: seq<Section> := [];
    var count, total := 0, 0;
    for i := 0 to |folders|
      invariant sections == ListSections(folders[..i])
      invariant count == ListCount(folders[..i])
      invariant total == ListTotal(folders[..i])
    {
      var folder := folders[i];
      assert folders[..i + 1][..i] == folders[..i];
      var files := FilesOf(folder);
      if |files| > 0 {
        var sorted := SortByDate(files);
        SortKeepsTotals(files);
        var lines, n, blockTotal := ReadFolder(sorted);
        count := count + n;
        total := total + blockTotal;
        if |lines| > 0 {
          sections := sections + [Section(folder.category, lines, blockTotal)];
        }
      }
    }
    assert folders[..|folders|] == folders;
    report := ListReport(sections, count, total);
  }

  function SumSections(sections: seq<Section>): nat
  {
    if |sections| == 0 then 0
    else SumSections(sections[..|sections| - 1]) + sections[|sections| - 1].total
  }

  function LineCount(sections: seq<Section>): nat
  {
    if |sections| == 0 then 0
    else LineCount(sections[..|sections| - 1]) + |sections[|sections| - 1].lines|
  }

  lemma SumSectionsSnoc(a: seq<Section>, b: seq<Section>)
    requires |b| <= 1
    ensures SumSections(a + b) == SumSections(a) + SumSections(b)
    ensures LineCount(a + b) == LineCount(a) + LineCount(b)
  {
    if |b| == 1 {
      assert (a + b)[..|a + b| - 1] == a;
      assert [] + b == b;
    } else {
      assert a + b == a;
    }
  }

  /** A folder without a block has no key that reads back, so it adds
      nothing to the count or the total; a folder with one adds exactly its
      block. */
  lemma SectionOfMatchesCounts(folder: Folder)
    ensures SumSections(SectionOf(folder)) == DecodableTotal(FilesOf(folder))
    ensures LineCount(SectionOf(folder)) == DecodableCount(FilesOf(folder))
  {
    var files := FilesOf(folder);
    LinesMatchCounts(SortByDate(files));
    SortKeepsTotals(files);
    if DecodableCount(files) == 0 {
      NoneDecodeNoTotal(files);
    }
    assert [] + SectionOf(folder) == SectionOf(folder);
  }

  lemma {:induction false} NoneDecodeNoTotal(entries: seq<Entry>)
    requires DecodableCount(entries) == 0
    ensures DecodableTotal(entries) == 0
  {
    if |entries| > 0 {
      NoneDecodeNoTotal(entries[1..]);
    }
  }

  /** `total_biaya` is the sum of the block totals and `total_data` the
      number of shown lines. */
  lemma {:induction false} ListTotalIsSumOfSections(folders: seq<Folder>)
    ensures ListTotal(folders) == SumSections(ListSections(folders))
    ensures ListCount(folders) == LineCount(ListSections(folders))
  {
    if |folders| > 0 {
      var init, last := folders[..|folders| - 1], folders[|folders| - 1];
      ListTotalIsSumOfSections(init);
      ListUnfold(folders);
      SectionOfMatchesCounts(last);
      SumSectionsSnoc(ListSections(init), SectionOf(last));
      calc {
        ListTotal(folders);
        ListTotal(init) + DecodableTotal(FilesOf(last));
        SumSections(ListSections(init)) + SumSections(SectionOf(last));
        SumSections(ListSections(init) + SectionOf(last));
        SumSections(ListSections(folders));
      }
      calc {
        ListCount(folders);
        ListCount(init) + DecodableCount(FilesOf(last));
        LineCount(ListSections(init)) + LineCount(SectionOf(last));
        LineCount(ListSections(init) + SectionOf(last));
        LineCount(ListSections(folders));
      }
    }
  }

  lemma ListUnfold(folders: seq<Folder>)
    requires |folders| > 0
    ensures var init, last := folders[..|folders| - 1], folders[|folders| - 1];
      && ListSections(folders) == ListSections(init) + SectionOf(last)
      && ListTotal(folders) == ListTotal(init) + DecodableTotal(FilesOf(last))
      && ListCount(folders) == ListCount(init) + DecodableCount(FilesOf(last))
  {
  }

  /** The report says there is no data exactly when it shows no block. */
  lemma {:induction false} NoDataIffNoSections(folders: seq<Folder>)
    ensures ListCount(folders) == 0 <==> ListSections(folders) == []
  {
    if |folders| > 0 {
      var init := folders[..|folders| - 1];
      var last := folders[|folders| - 1];
      NoDataIffNoSections(init);
      LinesMatchCounts(SortByDate(FilesOf(last)));
      SortKeepsTotals(FilesOf(last));
    }
  }

  // ---------------------------------------------------------------------
  // /summary
  // ---------------------------------------------------------------------

  /** `sum(int(...) for f in files)`: the sum of all amounts, or `None` as
      soon as one key does not read back (the `ValueError` that abandons the
      whole category). */
  function SumAll(files: seq<Entry>): (r: Option<nat>)
    ensures r.Some? <==> AllDecode(files)
    ensures r.Some? ==> r.value == DecodableTotal(files)
  {
    if |files| == 0 then Some(0)
    else
      assert forall i :: 1 <= i < |files| ==> files[i] == files[1..][i - 1];
      match DecodeKey(files[0].name)
      case None => None
      case Some(rec) =>
        match SumAll(files[1..])
        case None => None
        case Some(t) => Some(rec.amount + t)
  }

  /** One line of the summary. */
  datatype Row = Row(category: string, total: nat)

  /** The row a folder contributes: only a non-empty listing all of whose
      keys read back gets one. */
  function RowOf(folder: Folder): seq<Row>
  {
    var files := FilesOf(folder);
    if |files| == 0 then []
    else match SumAll(files)
      case None => []
      case Some(t) => [Row(folder.category, t)]
  }

  function SummaryRows(folders: seq<Folder>): seq<Row>
  {
    if |folders| == 0 then []
    else SummaryRows(folders[..|folders| - 1]) + RowOf(folders[|folders| - 1])
  }

  function SumRows(rows: seq<Row>): nat
  {
    if |rows| == 0 then 0 else SumRows(rows[..|rows| - 1]) + rows[|rows| - 1].total
  }

  /** "No data to show", or the rows and the grand total. */
  datatype SummaryReport = NoData | Report(rows: seq<Row>, grandTotal: nat)

  /** The `/summary` handler's loop. */
  method Summary(folders: seq<Folder>) returns (report: SummaryReport)
    ensures report.NoData? <==> SummaryRows(folders) == []
    ensures report.Report? ==> report.rows == SummaryRows(folders)
    ensures report.Report? ==> report.grandTotal == SumRows(report.rows)
  {
    var rows: seq<Row> := [];
    var grand := 0;
    for i := 0 to |folders|
      invariant rows == SummaryRows(folders[..i])
      invariant grand == SumRows(rows)
    {
      SummaryRowsStep(folders, i);
      var files := FilesOf(folders[i]);
      if |files| > 0 {
        match SumAll(files)
        case None =>
        case Some(t) =>
          SumRowsSnoc(rows, [Row(folders[i].category, t)]);
          rows := rows + [Row(folders[i].category, t)];
          grand := grand + t;
      }
    }
    assert folders[..|folders|] == folders;
    if |rows| == 0 {
      report := NoData;
    } else {
      report := Report(rows, grand);
    }
  }

  lemma SummaryRowsStep(folders: seq<Folder>, i: nat)
    requires i < |folders|
    ensures SummaryRows(folders[..i + 1]) == SummaryRows(folders[..i]) + RowOf(folders[i])
  {
    assert folders[..i + 1][..i] == folders[..i];
  }

  /** A folder the summary shows. */
  predicate Included(folder: Folder)
  {
    |FilesOf(folder)| > 0 && AllDecode(FilesOf(folder))
  }

  /** What the summary leaves out but `/list` adds up: the readable amounts
      of the categories that have at least one unreadable key. */
  function DroppedTotal(folders: seq<Folder>): nat
  {
    if |folders| == 0 then 0
    else
      var last := folders[|folders| - 1];
      DroppedTotal(folders[..|folders| - 1]) + (if Included(last) then 0 else DecodableTotal(FilesOf(last)))
  }

  lemma SumRowsSnoc(a: seq<Row>, b: seq<Row>)
    requires |b| <= 1
    ensures SumRows(a + b) == SumRows(a) + SumRows(b)
  {
    if |b| == 1 {
      assert (a + b)[..|a + b| - 1] == a;
      assert [] + b == b;
    } else {
      assert a + b == a;
    }
  }

  /** The summary's grand total and the `/list` total differ by exactly the
      readable amounts of the dropped categories. */
  lemma {:induction false} SummaryVsList(folders: seq<Folder>)
    ensures SumRows(SummaryRows(folders)) + DroppedTotal(folders) == ListTotal(folders)
  {
    if |folders| > 0 {
      var init := folders[..|folders| - 1];
      var last := folders[|folders| - 1];
      SummaryVsList(init);
      SumRowsSnoc(SummaryRows(init), RowOf(last));
      if |FilesOf(last)| == 0 {
        assert DecodableTotal(FilesOf(last)) == 0;
      }
    }
  }

  /** So when every key of every category reads back, the two totals agree. */
  lemma {:induction false} NothingDropped(folders: seq<Folder>)
    requires forall i :: 0 <= i < |folders| ==> AllDecode(FilesOf(folders[i]))
    ensures DroppedTotal(folders) == 0
    ensures SumRows(SummaryRows(folders)) == ListTotal(folders)
  {
    if |folders| > 0 {
      var init := folders[..|folders| - 1];
      assert forall i :: 0 <= i < |init| ==> init[i] == folders[i];
      NothingDropped(init);
      var files := FilesOf(folders[|folders| - 1]);
      if |files| == 0 {
        assert DecodableTotal(files) == 0;
      }
    }
    SummaryVsList(folders);
  }

  /** One unreadable key hides the whole category from the summary, while
      `/list` still shows its readable records. */
  lemma OneBadKeyDropsCategory(folder: Folder, bad: nat)
    requires bad < |FilesOf(folder)|
    requires !Decodes(FilesOf(folder)[bad].name)
    ensures RowOf(folder) == []
    ensures SectionOf(folder) == [] <==> DecodableCount(FilesOf(folder)) == 0
  {
    LinesMatchCounts(SortByDate(FilesOf(folder)));
    SortKeepsTotals(FilesOf(folder));
  }
}

=== FILE: store.dfy ===
/** The object store the bot keeps its records in, seen as a map from a
    path `category/period/name` to the stored bytes and the creation time
    the store assigned. The four operations the bot uses (list, upload,
    download, delete) are total functions; a network or server failure is
    a boolean the caller passes in. */
module ObjectStore {
  import opened Wrappers

  /** What an object holds: the receipt photo (as the chat platform's file
      id) or the placeholder image drawn for an entry without a photo. */
  datatype Blob = Photo(fileId: string) | Placeholder(note: string, amount: nat)

  /** `{category}/{period}/{name}`. */
  datatype Path = Path(category: string, period: string, name: string)

  datatype StoredObject = StoredObject(blob: Blob, created: string)

  type Store = map<Path, StoredObject>

  /** One element of a folder listing: `ObjectName` and `DateCreated`. */
  datatype Entry = Entry(name: string, created: string)

  function Names(entries: seq<Entry>): (names: seq<string>)
    ensures |names| == |entries|
    ensures forall i :: 0 <= i < |entries| ==> names[i] == entries[i].name
  {
    if |entries| == 0 then [] else [entries[0].name] + Names(entries[1..])
  }

  predicate Distinct<T(==)>(xs: seq<T>)
  {
    forall i, j :: 0 <= i < j < |xs| ==> xs[i] != xs[j]
  }

  /** `entries` is an exact listing of the folder `category/period/`: one
      entry per object, with the object's creation time. The store itself
      promises no order. */
  predicate ListingOf(store: Store, category: string, period: string, entries: seq<Entry>)
  {
    && Distinct(Names(entries))
    && (forall i :: 0 <= i < |entries| ==>
          && Path(category, period, entries[i].name) in store
          && store[Path(category, period, entries[i].name)].created == entries[i].created)
    && (forall p :: p in store && p.category == category && p.period == period ==>
          p.name in Names(entries))
  }

  /** A PUT of `blob` at `path`: it replaces whatever was there and touches
      nothing else; when the store does not answer 201 nothing changes. */
  function Upload(store: Store, path: Path, blob: Blob, created: string, ok: bool): (r: (Store, bool))
    ensures r.1 == ok
    ensures ok ==> path in r.0 && r.0[path] == StoredObject(blob, created)
    ensures !ok ==> r.0 == store
    ensures forall q :: q != path ==> (q in r.0 <==> q in store)
    ensures forall q :: q != path && q in store ==> r.0[q] == store[q]
  {
    if ok then (store[path := StoredObject(blob, created)], true) else (store, false)
  }

  /** A GET of `path`: the blob when the object exists and the request
      succeeds; a 404 and a failed request both come back as `None`. */
  function Download(store: Store, path: Path, ok: bool): (r: Option<Blob>)
    ensures r.Some? <==> ok && path in store
    ensures r.Some? ==> r.value == store[path].blob
  {
    if ok && path in store then Some(store[path].blob) else None
  }

  /** How a DELETE ended: removed, not found (which the bot counts as
      success), or failed. */
  datatype DeleteOutcome = Deleted | AlreadyAbsent | DeleteFailed
  {
    predicate Succeeded()
    {
      !DeleteFailed?
    }
  }

  /** A DELETE of `path`. After a successful answer (200 or 404) the path
      is absent; after a failure the store is as it was; no other path is
      touched. */
  function Delete(store: Store, path: Path, ok: bool): (r: (Store, DeleteOutcome))
    ensures r.1.DeleteFailed? <==> !ok
    ensures r.1.Deleted? <==> ok && path in store
    ensures r.1.Succeeded() ==> path !in r.0
    ensures !r.1.Succeeded() ==> r.0 == store
    ensures forall q :: q != path ==> (q in r.0 <==> q in store)
    ensures forall q :: q != path && q in r.0 ==> r.0[q] == store[q]
  {
    if !ok then (store, DeleteFailed)
    else if path in store then (store - {path}, Deleted)
    else (store, AlreadyAbsent)
  }

  /** The four ways a rename by download, delete and upload can end. */
  datatype EditOutcome = DownloadFailed | DeleteOldFailed | UploadNewFailed | Saved

  /** Moving the object at `from` to `to` the way the edit flow does it:
      download, then delete the old object, then upload the downloaded
      copy under the new path, each step only when the previous one
      succeeded. Nothing changes when the download or the delete fails; a
      failed upload leaves the old object deleted; a success moves the blob
      to the new path with a new creation time. No other path is touched. */
  function Rename(store: Store, from: Path, to: Path, created: string,
                  downloadOk: bool, deleteOk: bool, uploadOk: bool): (r: (Store, EditOutcome))
    ensures r.1 == DownloadFailed <==> !(downloadOk && from in store)
    ensures r.1 == DeleteOldFailed <==> downloadOk && from in store && !deleteOk
    ensures r.1 == UploadNewFailed <==> downloadOk && from in store && deleteOk && !uploadOk
    ensures r.1 == Saved <==> downloadOk && from in store && deleteOk && uploadOk
    ensures r.1 == DownloadFailed || r.1 == DeleteOldFailed ==> r.0 == store
    ensures r.1 == UploadNewFailed ==> r.0 == store - {from}
    ensures r.1 == Saved ==>
              && to in r.0
              && r.0[to] == StoredObject(store[from].blob, created)
              && (from != to ==> from !in r.0)
    ensures forall q :: q != from && q != to ==> (q in r.0 <==> q in store)
    ensures forall q :: q != from && q != to && q in r.0 ==> r.0[q] == store[q]
  {
    match Download(store, from, downloadOk)
    case None => (store, DownloadFailed)
    case Some(blob) =>
      var (afterDelete, deleted) := Delete(store, from, deleteOk);
      if !deleted.Succeeded() then (store, DeleteOldFailed)
      else
        var (afterUpload, uploaded) := Upload(afterDelete, to, blob, created, uploadOk);
        if uploaded then (afterUpload, Saved) else (afterDelete, UploadNewFailed)
  }

  /** A failed upload after a successful delete loses the record: unless
      something already sat at the new path, neither path holds an object
      afterwards. */
  lemma UploadFailureLosesRecord(store: Store, from: Path, to: Path, created: string,
                                 downloadOk: bool, deleteOk: bool, uploadOk: bool)
    requires to !in store
    requires Rename(store, from, to, created, downloadOk, deleteOk, uploadOk).1 == UploadNewFailed
    ensures from in store
    ensures from !in Rename(store, from, to, created, downloadOk, deleteOk, uploadOk).0
    ensures to !in Rename(store, from, to, created, downloadOk, deleteOk, uploadOk).0
  {
  }

  /** Renaming onto a free path keeps the number of objects. */
  lemma SavedRenameKeepsSize(store: Store, from: Path, to: Path, created: string,
                             downloadOk: bool, deleteOk: bool, uploadOk: bool)
    requires from != to && to !in store
    requires Rename(store, from, to, created, downloadOk, deleteOk, uploadOk).1 == Saved
    ensures |Rename(store, from, to, created, downloadOk, deleteOk, uploadOk).0| == |store|
  {
    var after := Rename(store, from, to, created, downloadOk, deleteOk, uploadOk).0;
    assert after.Keys == store.Keys - {from} + {to};
  }

  /** Every object of a folder is in a faithful listing of it, and every
      listed name is deletable: deleting it with a working store removes an
      object that was there. */
  lemma ListedNameIsStored(store: Store, category: string, period: string, entries: seq<Entry>, i: nat)
    requires ListingOf(store, category, period, entries)
    requires i < |entries|
    ensures Delete(store, Path(category, period, entries[i].name), true).1 == Deleted
  {
  }
}

=== FILE: strings.dfy ===
/** The parts of Python's `str` that the bot applies to object keys and
    category names, over `seq<char>`.

    Python's character classes are Unicode-aware (`\w`, `str.isdigit`,
    `str.isalpha`, `str.lower`, `str.strip`); here they are restricted to
    ASCII, which is the alphabet the bot's own keys and commands use. */
module Strings {

  // ---------------------------------------------------------------------
  // Character classes (ASCII approximations)
  // ---------------------------------------------------------------------

  predicate IsAsciiDigit(c: char) { '0' <= c <= '9' }

  predicate IsAsciiLetter(c: char) { 'a' <= c <= 'z' || 'A' <= c <= 'Z' }

  /** The characters `str.strip()` removes, restricted to ASCII: space,
      tab, line feed, carriage return, vertical tab, form feed, and the four
      separators 0x1C to 0x1F. */
  predicate IsAsciiSpace(c: char)
  {
    || c == ' ' || c == '\t' || c == '\n' || c == '\r' || c == '\U{000B}' || c == '\U{000C}'
    || c == '\U{001C}' || c == '\U{001D}' || c == '\U{001E}' || c == '\U{001F}'
  }

  /** `str.isdigit()`: at least one character, all of them digits. */
  predicate IsDigits(s: string)
  {
    |s| > 0 && forall i :: 0 <= i < |s| ==> IsAsciiDigit(s[i])
  }

  /** `str.isalpha()`: at least one character, all of them letters. */
  predicate IsAlpha(s: string)
  {
    |s| > 0 && forall i :: 0 <= i < |s| ==> IsAsciiLetter(s[i])
  }

  function LowerChar(c: char): char
  {
    if 'A' <= c <= 'Z' then (c as int + 32) as char else c
  }

  /** `str.lower()`. */
  function Lower(s: string): (r: string)
    ensures |r| == |s|
    ensures forall i :: 0 <= i < |s| ==> r[i] == LowerChar(s[i])
  {
    if |s| == 0 then [] else [LowerChar(s[0])] + Lower(s[1..])
  }

  /** Lower-cased text holds no upper-case letter. */
  lemma LowerHasNoUpper(s: string)
    ensures forall k :: 0 <= k < |Lower(s)| ==> !('A' <= Lower(s)[k] <= 'Z')
  {
  }

  /** Text without upper-case letters is its own lower case. */
  lemma LowerKeeps(s: string)
    requires forall i :: 0 <= i < |s| ==> !('A' <= s[i] <= 'Z')
    ensures Lower(s) == s
  {
  }

  /** `s` without its leading whitespace: a suffix of `s`, everything
      dropped is whitespace, and what is kept does not start with it. */
  function TrimLeft(s: string): (r: string)
    ensures |r| <= |s|
    ensures r == s[|s| - |r|..]
    ensures forall i :: 0 <= i < |s| - |r| ==> IsAsciiSpace(s[i])
    ensures |r| > 0 ==> !IsAsciiSpace(r[0])
  {
    if |s| > 0 && IsAsciiSpace(s[0]) then TrimLeft(s[1..]) else s
  }

  /** `s` without its trailing whitespace: a prefix of `s`, everything
      dropped is whitespace, and what is kept does not end with it. */
  function TrimRight(s: string): (r: string)
    ensures |r| <= |s|
    ensures r == s[..|r|]
    ensures forall i :: |r| <= i < |s| ==> IsAsciiSpace(s[i])
    ensures |r| > 0 ==> !IsAsciiSpace(r[|r| - 1])
  {
    if |s| > 0 && IsAsciiSpace(s[|s| - 1]) then TrimRight(s[..|s| - 1]) else s
  }

  /** `str.strip()`: the slice of `s` left after dropping the whitespace
      around it; it neither starts nor ends with whitespace, so it is the
      longest such slice. */
  function Strip(s: string): (r: string)
    ensures exists a, b :: 0 <= a <= b <= |s| && r == s[a..b]
              && (forall i :: 0 <= i < a ==> IsAsciiSpace(s[i]))
              && (forall i :: b <= i < |s| ==> IsAsciiSpace(s[i]))
    ensures |r| > 0 ==> !IsAsciiSpace(r[0]) && !IsAsciiSpace(r[|r| - 1])
  {
    var t := TrimLeft(s);
    var r := TrimRight(t);
    var a := |s| - |t|;
    assert r == s[a..a + |r|];
    r
  }

  /** Stripping twice is stripping once. */
  lemma StripIdempotent(s: string)
    ensures Strip(Strip(s)) == Strip(s)
  {
  }

  /** The slice `strip()` keeps is determined by the two properties of
      `Strip`: any slice with only whitespace around it and none at its
      ends is the stripped text. */
  lemma StripUnique(s: string, a: int, b: int)
    requires 0 <= a <= b <= |s|
    requires forall i :: 0 <= i < a ==> IsAsciiSpace(s[i])
    requires forall i :: b <= i < |s| ==> IsAsciiSpace(s[i])
    requires a < b ==> !IsAsciiSpace(s[a]) && !IsAsciiSpace(s[b - 1])
    ensures Strip(s) == s[a..b]
  {
    var c, d := StripBounds(s);
    TrimmedSlicesAgree(s, a, b, c, d);
  }

  /** Where the slice `Strip` keeps begins and ends. */
  lemma StripBounds(s: string) returns (c: int, d: int)
    ensures 0 <= c <= d <= |s| && Strip(s) == s[c..d]
    ensures forall i :: 0 <= i < c ==> IsAsciiSpace(s[i])
    ensures forall i :: d <= i < |s| ==> IsAsciiSpace(s[i])
    ensures c < d ==> !IsAsciiSpace(s[c]) && !IsAsciiSpace(s[d - 1])
  {
    var t := TrimLeft(s);
    var r := TrimRight(t);
    assert Strip(s) == r;
    c := |s| - |t|;
    d := c + |r|;
    SliceOfSuffix(s, t, r, c);
  }

  /** A prefix `r` of the suffix `t == s[c..]`, with only whitespace after
      it in `t`, is the slice `s[c..c + |r|]` with only whitespace after it
      in `s`. */
  lemma SliceOfSuffix(s: string, t: string, r: string, c: int)
    requires 0 <= c <= |s| && t == s[c..] && |r| <= |t| && r == t[..|r|]
    requires forall i :: |r| <= i < |t| ==> IsAsciiSpace(t[i])
    ensures r == s[c..c + |r|]
    ensures |r| > 0 ==> s[c] == t[0] && s[c + |r| - 1] == r[|r| - 1]
    ensures forall i :: c + |r| <= i < |s| ==> IsAsciiSpace(s[i])
  {
    forall i | c + |r| <= i < |s|
      ensures IsAsciiSpace(s[i])
    {
      assert s[i] == t[i - c];
    }
  }

  /** Two slices of `s` with only whitespace around them and none at their
      ends are the same slice. */
  lemma TrimmedSlicesAgree(s: string, a: int, b: int, c: int, d: int)
    requires 0 <= a <= b <= |s| && 0 <= c <= d <= |s|
    requires forall i :: 0 <= i < a ==> IsAsciiSpace(s[i])
    requires forall i :: b <= i < |s| ==> IsAsciiSpace(s[i])
    requires a < b ==> !IsAsciiSpace(s[a]) && !IsAsciiSpace(s[b - 1])
    requires forall i :: 0 <= i < c ==> IsAsciiSpace(s[i])
    requires forall i :: d <= i < |s| ==> IsAsciiSpace(s[i])
    requires c < d ==> !IsAsciiSpace(s[c]) && !IsAsciiSpace(s[d - 1])
    ensures s[a..b] == s[c..d]
  {
    if a < b {
      assert c <= a < d;
      assert a == c && b == d;
    } else {
      assert c == d;
    }
  }

  // ---------------------------------------------------------------------
  // Python slicing helpers
  // ---------------------------------------------------------------------

  /** `xs[-1]`. */
  function Last<T>(xs: seq<T>): T
    requires |xs| > 0
  {
    xs[|xs| - 1]
  }

  /** `xs[1:-1]`, which is empty (not an error) when `xs` has fewer than two items. */
  function Middle<T>(xs: seq<T>): (r: seq<T>)
    ensures |xs| >= 2 ==> r == xs[1..|xs| - 1]
    ensures |xs| < 2 ==> r == []
  {
    if |xs| >= 2 then xs[1..|xs| - 1] else []
  }

  // ---------------------------------------------------------------------
  // str.split(sep) and sep.join(parts) for a one-character separator
  // ---------------------------------------------------------------------

  /** `s.split(sep)`: never empty, and no piece contains the separator. */
  function Split(s: string, sep: char): (parts: seq<string>)
    ensures |parts| >= 1
    ensures forall i :: 0 <= i < |parts| ==> sep !in parts[i]
  {
    if |s| == 0 then [""]
    else
      var rest := Split(s[1..], sep);
      if s[0] == sep then [""] + rest
      else [[s[0]] + rest[0]] + rest[1..]
  }

  /** `sep.join(parts)`. */
  function Join(parts: seq<string>, sep: char): string
  {
    if |parts| == 0 then ""
    else if |parts| == 1 then parts[0]
    else parts[0] + [sep] + Join(parts[1..], sep)
  }

  /** Joining the pieces of a split gives back the original string. */
  lemma {:induction false} JoinSplit(s: string, sep: char)
    ensures Join(Split(s, sep), sep) == s
  {
    if |s| > 0 {
      JoinSplit(s[1..], sep);
      var rest := Split(s[1..], sep);
      if s[0] == sep {
        assert Split(s, sep) == [""] + rest;
        assert Join([""] + rest, sep) == "" + [sep] + Join(rest, sep);
        assert s == [s[0]] + s[1..];
      } else {
        var parts := Split(s, sep);
        assert parts == [[s[0]] + rest[0]] + rest[1..];
        if |rest| == 1 {
          assert Join(parts, sep) == [s[0]] + rest[0];
        } else {
          assert parts[1..] == rest[1..];
          assert Join(parts, sep) == [s[0]] + rest[0] + [sep] + Join(rest[1..], sep);
          assert Join(rest, sep) == rest[0] + [sep] + Join(rest[1..], sep);
        }
        assert s == [s[0]] + s[1..];
      }
    }
  }

  /** A string free of the separator is a single piece. */
  lemma {:induction false} SplitNoSeparator(s: string, sep: char)
    requires sep !in s
    ensures Split(s, sep) == [s]
  {
    if |s| > 0 {
      assert sep !in s[1..];
      SplitNoSeparator(s[1..], sep);
      assert s == [s[0]] + s[1..];
    }
  }

  /** Splitting distributes over a separator: the pieces of `a + sep + b` are
      the pieces of `a` followed by the pieces of `b`. */
  lemma {:induction false} SplitAppend(a: string, b: string, sep: char)
    ensures Split(a + [sep] + b, sep) == Split(a, sep) + Split(b, sep)
  {
    if |a| == 0 {
      SplitCons(sep, b, sep);
      assert a + [sep] + b == [sep] + b;
    } else {
      var t := a[1..];
      SplitAppend(t, b, sep);
      assert a == [a[0]] + t;
      assert a + [sep] + b == [a[0]] + (t + [sep] + b);
      SplitAppendStep(a[0], t, t + [sep] + b, Split(t, sep), Split(b, sep), sep);
    }
  }

  /** How `Split` reads its first character. */
  lemma SplitCons(c: char, t: string, sep: char)
    ensures Split([c] + t, sep)
            == if c == sep then [""] + Split(t, sep)
               else [[c] + Split(t, sep)[0]] + Split(t, sep)[1..]
  {
    assert ([c] + t)[0] == c && ([c] + t)[1..] == t;
  }

  /** The inductive step of `SplitAppend`, over the pieces `ra` of `t` and
      `rb` of `b`. */
  lemma SplitAppendStep(c: char, t: string, tb: string, ra: seq<string>, rb: seq<string>, sep: char)
    requires Split(t, sep) == ra && Split(tb, sep) == ra + rb
    ensures Split([c] + tb, sep) == Split([c] + t, sep) + rb
  {
    SplitCons(c, t, sep);
    SplitCons(c, tb, sep);
    if c == sep {
      PrependPiece("", ra, rb);
    } else {
      ExtendFirstPiece([c], ra, rb);
    }
  }

  lemma PrependPiece(h: string, ra: seq<string>, rb: seq<string>)
    ensures [h] + (ra + rb) == ([h] + ra) + rb
  {
  }

  lemma ExtendFirstPiece(c: string, ra: seq<string>, rb: seq<string>)
    requires |ra| >= 1
    ensures [c + (ra + rb)[0]] + (ra + rb)[1..] == ([c + ra[0]] + ra[1..]) + rb
  {
    assert (ra + rb)[0] == ra[0];
    assert (ra + rb)[1..] == ra[1..] + rb;
  }

  /** Splitting a join of separator-free pieces gives back the pieces. */
  lemma {:induction false} SplitJoin(parts: seq<string>, sep: char)
    requires |parts| >= 1
    requires forall i :: 0 <= i < |parts| ==> sep !in parts[i]
    ensures Split(Join(parts, sep), sep) == parts
  {
    if |parts| == 1 {
      SplitNoSeparator(parts[0], sep);
    } else {
      SplitJoin(parts[1..], sep);
      SplitNoSeparator(parts[0], sep);
      SplitAppend(parts[0], Join(parts[1..], sep), sep);
      assert parts == [parts[0]] + parts[1..];
    }
  }

  /** Joining two non-empty runs of pieces puts one separator between them. */
  lemma {:induction false} JoinConcat(xs: seq<string>, ys: seq<string>, sep: char)
    requires |xs| >= 1 && |ys| >= 1
    ensures Join(xs + ys, sep) == Join(xs, sep) + [sep] + Join(ys, sep)
  {
    if |xs| == 1 {
      assert (xs + ys)[1..] == ys;
    } else {
      assert (xs + ys)[1..] == xs[1..] + ys;
      JoinConcat(xs[1..], ys, sep);
    }
  }

  /** Re-bracketing three strings joined by a separator. */
  lemma JoinAssoc(a: string, b: string, c: string, sep: char)
    ensures a + [sep] + (b + [sep] + c) == a + [sep] + b + [sep] + c
  {
  }

  /** A list of at least three pieces joins as first, middle, last. */
  lemma JoinThree(parts: seq<string>, sep: char)
    requires |parts| >= 3
    ensures Join(parts, sep) == parts[0] + [sep] + (Join(Middle(parts), sep) + [sep] + Last(parts))
  {
    var m := Middle(parts);
    var l := Last(parts);
    var tail := m + [l];
    assert m == parts[1..|parts| - 1];
    assert tail == parts[1..];
    assert parts == [parts[0]] + parts[1..];
    JoinConcat([parts[0]], tail, sep);
    assert Join(parts, sep) == parts[0] + [sep] + Join(tail, sep);
    JoinConcat(m, [l], sep);
    assert Join(tail, sep) == Join(m, sep) + [sep] + l;
  }

  // ---------------------------------------------------------------------
  // str.replace(pat, "")
  // ---------------------------------------------------------------------

  /** `s.replace(pat, "")`: scans left to right and deletes every
      non-overlapping occurrence of `pat`. The result may still contain
      `pat` (deleting one occurrence can join its neighbours into a new one). */
  function RemoveAll(s: string, pat: string): (r: string)
    requires |pat| > 0
    ensures |r| <= |s|
    decreases |s|
  {
    if |s| < |pat| then s
    else if s[..|pat|] == pat then
      assert s == s[..|pat|] + s[|pat|..];
      RemoveAll(s[|pat|..], pat)
    else
      assert s == [s[0]] + s[1..];
      [s[0]] + RemoveAll(s[1..], pat)
  }

  /** Removal only deletes: every character of the result comes from `s`. */
  lemma {:induction false} RemoveAllKeepsChars(s: string, pat: string)
    requires |pat| > 0
    ensures forall c :: c in RemoveAll(s, pat) ==> c in s
    decreases |s|
  {
    if |s| >= |pat| {
      if s[..|pat|] == pat {
        RemoveAllKeepsChars(s[|pat|..], pat);
      } else {
        RemoveAllKeepsChars(s[1..], pat);
      }
    }
  }

  /** A leading character that cannot start the pattern is kept. */
  lemma RemoveAllCons(c: char, s: string, pat: string)
    requires |pat| > 0 && c != pat[0]
    ensures RemoveAll([c] + s, pat) == [c] + RemoveAll(s, pat)
  {
    var t := [c] + s;
    assert t[1..] == s;
    if |t| >= |pat| {
      assert t[..|pat|][0] == c;
    }
  }

  /** A string without the pattern's first character is left alone. */
  lemma {:induction false} RemoveAllAbsent(s: string, pat: string)
    requires |pat| > 0 && pat[0] !in s
    ensures RemoveAll(s, pat) == s
  {
    if |s| > 0 {
      assert pat[0] !in s[1..];
      RemoveAllAbsent(s[1..], pat);
      RemoveAllCons(s[0], s[1..], pat);
      assert s == [s[0]] + s[1..];
    }
  }

  /** A trailing pattern is deleted when nothing before it can start one. */
  lemma {:induction false} RemoveAllSuffix(s: string, pat: string)
    requires |pat| > 0 && pat[0] !in s
    ensures RemoveAll(s + pat, pat) == s
  {
    if |s| == 0 {
      assert s + pat == pat;
      assert pat[|pat|..] == "";
    } else {
      assert pat[0] !in s[1..];
      RemoveAllSuffix(s[1..], pat);
      assert s + pat == [s[0]] + (s[1..] + pat);
      RemoveAllCons(s[0], s[1..] + pat, pat);
    }
  }

  /** Removal distributes over a concatenation whose right half starts with
      a character that no occurrence of the pattern could continue with:
      no occurrence straddles the seam. */
  lemma {:induction false} RemoveAllAppend(a: string, b: string, pat: string)
    requires |pat| > 0 && |b| > 0 && b[0] !in pat[1..]
    ensures RemoveAll(a + b, pat) == RemoveAll(a, pat) + RemoveAll(b, pat)
    decreases |a|
  {
    var s := a + b;
    if |a| == 0 {
      assert s == b;
    } else if |a| >= |pat| {
      assert s[..|pat|] == a[..|pat|];
      if a[..|pat|] == pat {
        assert s[|pat|..] == a[|pat|..] + b;
        RemoveAllAppend(a[|pat|..], b, pat);
      } else {
        assert s[1..] == a[1..] + b;
        RemoveAllAppend(a[1..], b, pat);
      }
    } else {
      assert RemoveAll(a, pat) == a;
      RemoveAllShortPrefix(a, b, pat);
    }
  }

  lemma RemoveAllSkipHead(s: string, pat: string)
    requires 0 < |pat| <= |s| && s[..|pat|] != pat
    ensures RemoveAll(s, pat) == [s[0]] + RemoveAll(s[1..], pat)
  {
  }

  /** A prefix shorter than the pattern, followed by a character that
      cannot continue an occurrence, is kept as it is. */
  lemma {:induction false} RemoveAllShortPrefix(a: string, b: string, pat: string)
    requires |a| < |pat| && |b| > 0 && b[0] !in pat[1..]
    ensures RemoveAll(a + b, pat) == a + RemoveAll(b, pat)
  {
    var s := a + b;
    if |a| == 0 {
      assert s == b;
    } else if |s| >= |pat| {
      RemoveAllShortPrefix(a[1..], b, pat);
      ShortPrefixNoMatch(a, b, pat);
      assert s[1..] == a[1..] + b;
      KeepFirst(s, a[1..] + b, a, pat, RemoveAll(b, pat));
    } else {
      assert RemoveAll(b, pat) == b;
    }
  }

  lemma ShortPrefixNoMatch(a: string, b: string, pat: string)
    requires 0 < |a| < |pat| <= |a| + |b| && b[0] !in pat[1..]
    ensures (a + b)[..|pat|] != pat
  {
    var k := |a|;
    assert pat[1..][k - 1] == pat[k];
    assert (a + b)[..|pat|][k] == b[0];
  }

  /** When the pattern does not start `s`, its first character is kept. */
  lemma KeepFirst(s: string, t: string, a: string, pat: string, r: string)
    requires 0 < |pat| <= |s| && s[..|pat|] != pat && |a| > 0 && s[0] == a[0]
    requires s[1..] == t && RemoveAll(t, pat) == a[1..] + r
    ensures RemoveAll(s, pat) == a + r
  {
    RemoveAllSkipHead(s, pat);
    assert a == [a[0]] + a[1..];
  }

  predicate OccursAt(s: string, pat: string, i: int)
  {
    0 <= i && i + |pat| <= |s| && s[i..i + |pat|] == pat
  }

  /** `pat in s`. */
  ghost predicate Occurs(s: string, pat: string)
  {
    exists i :: OccursAt(s, pat, i)
  }

  /** One pass can leave the pattern behind: deleting the inner `.jpg` of
      `.j.jpgpg` joins its neighbours into a new one. */
  lemma RemoveAllCanLeavePattern()
    ensures RemoveAll(".j.jpgpg", ".jpg") == ".jpg"
  {
    var pat := ".jpg";
    assert RemoveAll("pg", pat) == "pg";
    assert ".jpgpg"[..4] == pat && ".jpgpg"[4..] == "pg";
    assert RemoveAll(".jpgpg", pat) == "pg";
    assert "j.jpgpg"[..4][0] != pat[0] && "j.jpgpg"[1..] == ".jpgpg";
    RemoveAllSkipHead("j.jpgpg", pat);
    assert ['j'] + "pg" == "jpg";
    assert ".j.jpgpg"[..4][2] != pat[2] && ".j.jpgpg"[1..] == "j.jpgpg";
    RemoveAllSkipHead(".j.jpgpg", pat);
    assert ['.'] + "jpg" == ".jpg";
  }

  /** Removal leaves a string without occurrences unchanged. */
  lemma {:induction false} RemoveAllUnchanged(s: string, pat: string)
    requires |pat| > 0 && !Occurs(s, pat)
    ensures RemoveAll(s, pat) == s
    decreases |s|
  {
    if |s| >= |pat| {
      assert !OccursAt(s, pat, 0);
      assert s[..|pat|] == s[0..0 + |pat|];
      forall i
        ensures !OccursAt(s[1..], pat, i)
      {
        if 0 <= i && i + |pat| <= |s| - 1 {
          assert s[1..][i..i + |pat|] == s[i + 1..i + 1 + |pat|];
          assert !OccursAt(s, pat, i + 1);
        }
      }
      RemoveAllUnchanged(s[1..], pat);
      assert s == [s[0]] + s[1..];
    }
  }

  /** Where the pieces of `d_t_n_a` followed by a four-character suffix
      sit, for an eight-character `d` and a six-character `t`. */
  lemma KeyLayout(k: string, d: string, t: string, n: string, a: string, ext: string)
    requires |d| == 8 && |t| == 6 && |ext| == 4
    requires k == d + "_" + t + "_" + n + "_" + a + ext
    ensures |k| == 21 + |n| + |a|
    ensures k[..8] == d
    ensures k[9..15] == t
    ensures k[16..|k| - 4] == n + "_" + a
  {
    var x := n + "_" + a;
    assert k == (d + "_" + t + "_") + x + ext;
    assert k[..8] == d;
    assert k[9..15] == t;
    assert k[16..|k| - 4] == x;
  }

  /** An occurrence inside either half is an occurrence in the whole. */
  lemma OccursInConcat(a: string, b: string, pat: string)
    ensures Occurs(a, pat) ==> Occurs(a + b, pat)
    ensures Occurs(b, pat) ==> Occurs(a + b, pat)
  {
    if Occurs(a, pat) {
      var i :| OccursAt(a, pat, i);
      assert (a + b)[i..i + |pat|] == a[i..i + |pat|];
      assert OccursAt(a + b, pat, i);
    }
    if Occurs(b, pat) {
      var i :| OccursAt(b, pat, i);
      assert (a + b)[|a| + i..|a| + i + |pat|] == b[i..i + |pat|];
      assert OccursAt(a + b, pat, |a| + i);
    }
  }

  /** A pattern absent from a join of three or more pieces is absent from
      the first piece and from the join of the middle pieces. */
  lemma NoOccursInJoinThree(parts: seq<string>, sep: char, pat: string)
    requires |parts| >= 3
    requires !Occurs(Join(parts, sep), pat)
    ensures !Occurs(parts[0], pat)
    ensures !Occurs(Join(Middle(parts), sep), pat)
  {
    var j := Join(Middle(parts), sep);
    var l := Last(parts);
    JoinThree(parts, sep);
    assert Join(parts, sep) == parts[0] + ([sep] + (j + [sep] + l));
    OccursInConcat(parts[0], [sep] + (j + [sep] + l), pat);
    OccursInConcat([sep], j + [sep] + l, pat);
    assert j + [sep] + l == j + ([sep] + l);
    OccursInConcat(j, [sep] + l, pat);
  }


  // ---------------------------------------------------------------------
  // Lexicographic order on strings (Python's `<` on `str`)
  // ---------------------------------------------------------------------

  /** `a < b` on Python strings: code-point lexicographic order. */
  predicate LexLess(a: string, b: string)
  {
    if |a| == 0 then |b| > 0
    else |b| > 0 && (if a[0] == b[0] then LexLess(a[1..], b[1..]) else a[0] < b[0])
  }

  lemma {:induction false} LexLessIrreflexive(a: string)
    ensures !LexLess(a, a)
  {
    if |a| > 0 {
      LexLessIrreflexive(a[1..]);
    }
  }

  lemma {:induction false} LexLessTransitive(a: string, b: string, c: string)
    requires LexLess(a, b) && LexLess(b, c)
    ensures LexLess(a, c)
  {
    if |a| > 0 && a[0] == b[0] && b[0] == c[0] {
      LexLessTransitive(a[1..], b[1..], c[1..]);
    }
  }

  lemma {:induction false} LexLessTotal(a: string, b: string)
    ensures a == b || LexLess(a, b) || LexLess(b, a)
  {
    if |a| > 0 && |b| > 0 && a[0] == b[0] {
      LexLessTotal(a[1..], b[1..]);
      if a[1..] == b[1..] {
        assert a == [a[0]] + a[1..] && b == [b[0]] + b[1..];
      }
    }
  }

  lemma LexLessAsymmetric(a: string, b: string)
    requires LexLess(a, b)
    ensures !LexLess(b, a)
  {
    if LexLess(b, a) {
      LexLessTransitive(a, b, a);
      LexLessIrreflexive(a);
    }
  }
}

=== FILE: wrappers.dfy ===
/** Optional values, used wherever the bot reads a value that may be missing:
    a dictionary lookup with `.get`, an `int()` that may raise, a store
    listing that may fail. */
module Wrappers {

  datatype Option<+T> = None | Some(value: T) {

    /** The wrapped value, or `default` when there is none (Python's `dict.get(k, default)`). */
    function GetOr(default: T): T
    {
      match this
      case Some(v) => v
      case None => default
    }
  }
}
